=== FILE: README.md ===
# Text-adventure hub and boutique domain, modelled in Dafny

The system is a multi-server text adventure. A central **hub** (hub.py)
registers **domain** servers, generates a small item world when play
starts, logs users in, and keeps the authoritative record of every user:
the domain they are in, their inventory, their scores, and their progress
through the outside world (`domstate`). A domain asks the hub to move
items (`/transfer`), award points (`/score`) and report where items are
(`/query`). The hub tells a domain when a user leaves (`/depart`),
arrives (`/arrive`) or drops something there (`/dropped`). The example
domain (newdomain.py) is a five-room fashion boutique with a keypad-locked
VIP lounge.

The model is functional. Each endpoint is a pure function from the
current state and the request fields to a new state and an answer:

- On the hub, that is `Step(hub, out)`.
- On the boutique, it is `ShopStep(shop, out)`.
- An answer is `Ok(value)` or `Err(code)`. The codes are 400, 403, 409, and 500 for an uncaught Python exception.
- Raw JSON request fields are `Option<Json>`, where `None` means the key is absent. This models Python's `old == new` comparison in `/transfer` exactly.
- The random draws of the source are parameters: domain ids, secrets, loot ids, shuffled names, the login domain choice.
- So are the answers of the other server that a handler depends on: the `/dropped` reply, and the `/query` and `/transfer` outcomes seen by the boutique.

Modules, in the order of the program:

- `Values`, `Text`, `Protocol`: JSON values, Python's `int()`/`str()`/`.upper()`/`' '.join`, and item briefs.
- `HubState`: hub entities and the invariant `Valid`.
- `Guard`: `checkuid`/`checkdid`.
- `Setup`: registration, `/mode`, `make_map`'s prize index, `assign_loot`.
- `Arrival`: the `arrive` payload, `login`.
- `Journey`: the stage loop.
- `Drop`: the `drop` command.
- `Transfer`, `Scores`, `Query`: the three domain-facing endpoints.
- `Command`: `/command` dispatch.
- `HubSystem`: every hub request applied in sequence, with ratchet properties over any run.
- `Boutique`, `Visit`, `ShopCommand`, `ShopSystem`: the boutique's state, its hub-facing endpoints, its command branches, and its runs.
- `Scenarios`: worked runs across the two servers.

Behaviour of the code that is easy to misread, and that the model keeps:

- **Journey stages.** One `journey` call can pass several stages in a row. The loop re-tests `domstate` after raising it. See `Journey.AllKeysPassAllStages`.
- **Registration limit.** The test is `len(domains) > 1`, so a second domain can be registered. Only the first registered domain ever receives `loot`. A user placed in the second domain crashes `arrive` with a `KeyError` (500), and so does a depth query from that domain.
- **Transfer no-op check.** It refuses exactly two cases: an item never held with `to` null, and a carried item with `to` "inventory". Any other "same place" request falls through to the later checks.
- **Carried items.** The stored location "inventory" is a string whose first character is never a domain id. So no domain can move an item the user carries.
- **`drop`.** It writes the location directly and does not go through `/transfer`. It leaves `hashad` alone.

## Model

| member | source | states |
|---|---|---|
| Guard.CheckUser | hub.py:108-119 | the user is accepted exactly when the hub is in play, both fields are present, the user is known and the secret matches; otherwise 409, 400 or 403 in that order |
| Guard.CheckDomain | hub.py:121-132 | the same acceptance condition and error order for a domain and its secret |
| Setup.Register | hub.py:393-431 | only in setup (409 otherwise); 400 exactly when the name, description or url is missing or not a string or the item list is not a list of objects; for a well-formed request, 409 exactly for a repeated URL or when more than one domain is registered; succeeds exactly when at most one domain is registered, then stores the domain without loot, stores exactly the templates `AddTemplates` builds from the items (ids `len(templates)+t0+i`, see `Setup.FreshRegistration`) and answers with those ids, appends a new domain to the registration order that decides the loot holder, and keeps the state valid |
| Setup.FreshRegistration | hub.py:418-428 | when the ids `len(templates)+t0+i` are free, item i is stored under exactly that id with name default "thing" and depth clamped at 0, and no earlier template changes |
| Setup.FreeFrom | hub.py:97-98 | the loot id is the least id at or above the draw that is not a template id |
| Setup.PrizeIndex | hub.py:85-88 | an item is listed under (home, depth) exactly when it is a template with that home and that depth |
| Setup.StartPlay | hub.py:60-105 | the first registered domain's loot is four consecutive ids starting at the least free id at or above the draw; the four templates stored there carry the shuffled names, home -1, depths 0, 1, 2 and the drawn one, and are hosted by that domain; every registered template the loot does not overwrite is kept; other domains are untouched; the prize index is taken from the templates present before the loot is added |
| Setup.SetMode | hub.py:149-173 | a request for the current mode changes nothing; a locked hub refuses (409); setup is never re-entered (403); play needs a registered domain (409) and otherwise switches to play by building the prize index and assigning the loot (`StartPlay`); anything else is 400; users are untouched and the state stays valid |
| Arrival.ArrivePayload | hub.py:312-336 | items the user carries and whose home is the destination are `owned`, the other carried items are `carried`, items dropped in the destination go in `dropped` with their spot, and `prize` lists exactly the destination's loot the user never had, with depths |
| Arrival.Arrive | hub.py:312-347 | fails exactly when the destination has no loot list (the `KeyError`); otherwise records a 0 score default for the destination without changing any stored score |
| Arrival.Login | hub.py:200-217 | refused (409) outside play; otherwise a new user id `len(users)` with empty inventory, history, scores and stage, placed in one of the registered domains; the answer is 500 exactly when that domain has no loot, and the user is kept either way |
| Command.HandleCommand | hub.py:220-244 | guard errors first, then 400 for a missing or non-list-of-strings command, 500 for an empty list; `region`, `inventory`, `score` and unknown verbs answer without changing anything; `journey` answers with the trip report or the journey's own code (403 for anything but one cardinal direction, with nothing changed; 500 exactly when the current domain has no loot list); only `journey` and `drop` change state, never a score, never lowering a stage |
| Journey.Travel | hub.py:274-285 | the whole three-stage loop: only inventory, history and stage change, the stage never goes down and stays at most 3 |
| Journey.TravelFinds | hub.py:274-282 | an item is found exactly when the user never had it and it is a prize of the current domain for a stage the loop visited; found items become carried and are added to the history |
| Journey.TravelStops | hub.py:274-285 | every stage passed had its outside-world key carried, and the loop stops at the first stage whose key is not carried |
| Journey.Stages | hub.py:274-285 | the imperative `for ds in range(3)` loop computes the same user and found set as `Travel` |
| Journey.TakeJourney | hub.py:254-289 | a direction other than north/south/east/west is refused with 403 and nothing changes; otherwise the user record is the result of the stage loop, and the answer is 500 exactly when the domain has no loot list |
| Journey.NothingNewIsIdle | hub.py:274-286 | the trip ends with "Finding nothing new" (no prize found, no obstacle passed) exactly when it left the user's record unchanged |
| Journey.JourneyAdvancesOnly | hub.py:254-289 | a journey never forgets a user, never lowers any stage, and leaves the mode, the templates and every stored score as they were |
| Journey.AllKeysPassAllStages | hub.py:274-285 | a user at stage 0 who carries all three keys reaches stage 3 in one journey |
| Text.ParseShowRoundTrip | hub.py:359-360 | `int(str(n)) == n`, so the id the drop command matches as text is the id it drops |
| Drop.ById | hub.py:359-360 | a text names a carried item by id exactly when it is that item's `str` form |
| Drop.DropItem | hub.py:349-390 | nothing named: a prompt; exactly when no carried item has that id or name: not carried; several carried items with that name: the ambiguous set; a failed `/dropped` call: refused; otherwise the one picked item is recorded as dropped at the user's domain with the reply as spot, and nothing else changes |
| Drop.DroppedIsFoundThere | hub.py:540-545 | after a drop whose returned spot is neither null nor "inventory", the domain's location query for that spot lists the item (a spot of "inventory" is read back by the query as the user's own inventory, and a null one is refused) |
| Drop.DropThenPickUp | hub.py:491-510 | after a drop, the domain moving the item back to "inventory" restores the user's record exactly |
| Scores.AwardScore | hub.py:433-461 | guard errors; 400 for an unknown user, missing score or one outside [0, 1.005]; 409 for a score below the stored one; otherwise exactly that score is stored; no stored score ever goes down |
| Transfer.Move | hub.py:491-510 | 409 exactly for the two requests Python sees as no-ops and 403 for every other refusal; success exactly when the item is new to the user and the domain owns or hosts it, or it is parked with this domain and either goes back to the inventory or the domain is its home; a carried item is never moved; success rewrites only that entry and adds the item to the history exactly when it becomes carried |
| Transfer.TransferItem | hub.py:463-512 | the guard's error code, then 400 for an unknown user, an unknown item or a missing `to`, in that order; past those checks the answer is `Move`'s, its refusal code passed through unchanged, and success stores `Move`'s record for that one user and changes nothing else |
| Query.QueryItems | hub.py:515-550 | the guard's error code, then 400 for an unknown user, then 400 unless exactly one of location and depth is given; a location query is 400 exactly when the location is null and is answered otherwise; a depth query is 500 exactly when the domain has no loot and is answered otherwise; a location query lists exactly the items stored at that place, with spots scoped to the asking domain; a depth query lists exactly the domain's loot of that depth the user never had |
| Query.TransferredToInventoryIsCarried | hub.py:540-545 | an item a domain hands to a user shows up in that domain's inventory query |
| Query.TransferredToSpotIsThere | hub.py:540-545 | an item a domain parks at a spot shows up in the query for that spot and not in the inventory query |
| HubSystem.RunAdvances | hub.py:149-550 | over any sequence of requests the state stays valid, users are never forgotten, stored scores and stages never go down, and play keeps the same item world and the same domains |
| HubSystem.ReachableValid | hub.py:15-24 | every state reachable from the empty setup state is valid |
| HubSystem.ScoresNeverDrop | hub.py:456-460 | no stored score decreases over any run |
| HubSystem.StagesNeverDrop | hub.py:274-285 | no user is forgotten and no stage decreases over any run |
| HubSystem.PlayIsFinal | hub.py:154-173 | once in play the hub stays in play with the same templates, prize index and domain records (loot lists and secrets included) |
| HubSystem.SetupIsNeverReentered | hub.py:156-157 | a hub that has left setup never returns to it |
| Boutique.Exits | newdomain.py:67-93 | every exit of a room leads to another room or to the journey exit |
| Boutique.Start | newdomain.py:134-150 | after registration no user is known and only the entrance holds an item, the flyer |
| Visit.Depart | newdomain.py:98-112 | 403 on a wrong secret; otherwise only the departed flag of a known user is set |
| Visit.AddPrizesPerRoom | newdomain.py:193-199 | each room receives exactly the prizes whose depth (0 when absent) sends them there, in order: depth 0 to the accessories, 1 and 2 to the VIP lounge, others nowhere |
| Visit.AddDroppedPerRoom | newdomain.py:201-206 | when every spot is a room, each room receives exactly the items dropped there, in order |
| Visit.Arrive | newdomain.py:154-219 | 403 on a wrong secret; the user is reset to the entrance and not departed, and the keypad lock survives; the answer is 500 exactly when some spot is not a room; on success each room holds the magazine (shopping area, unless owned or dropped), its prizes, the items dropped there and the flyer (entrance, unless owned or dropped) |
| Visit.Dropped | newdomain.py:221-244 | 403 on a wrong secret or unknown user; otherwise the item joins the user's current room and that room is the answer |
| ShopCommand.Go | newdomain.py:456-479 | the user moves exactly when the direction is an exit of the room that is not the journey exit, and lands in that exit's room; the journey exit answers with the journey directive |
| ShopCommand.Tell | newdomain.py:481-488 | the keypad unlocks exactly when the user is in the VIP lounge and the upper-cased code is "VIP123"; every other answer leaves the state alone |
| ShopCommand.CodeSpellings | newdomain.py:483 | the codes whose upper case is "VIP123" are exactly v, i and p in either case (i also as the dotless ı) followed by 123 |
| ShopCommand.FirstMatching | newdomain.py:267-268 | the answer is an item the key names with no earlier item named by it, and there is no answer exactly when no item of the room matches |
| ShopCommand.Target | newdomain.py:406-419 | an identifier that parses as an integer selects the first room item with that id, any other the first room item with that name; there is no answer exactly when no room item matches |
| ShopCommand.Take | newdomain.py:401-452 | an item is taken exactly when it is in the room by id or name, the VIP lounge is unlocked if the user is there, the gold-card gate passes for depth-2 VIP items, and the transfer succeeds; every item with that id then leaves the room |
| ShopCommand.Use | newdomain.py:368-397 | nothing changes; the win answer comes exactly when the user holds the gold card and the necklace, is in the VIP lounge and has unlocked the keypad; the paths that return nothing are 500 |
| ShopCommand.Command | newdomain.py:249-488 | an unknown user is told to journey here first, a departed user gets 409, an empty command is 500; `go`, `take`, `use` and `tell keypad <code>` are answered by their handlers, `look` describes, `read` needs a second word; an unknown verb, or a `tell` that is not `tell keypad <code>`, is 500; no other user changes, rooms only lose items and only through a take, and an unlocked keypad never locks again |
| ShopSystem.RunAdvances | newdomain.py:98-488 | over any sequence of requests every user stands in a room, no user is forgotten and an open keypad stays open |
| ShopSystem.DroppedComeBack | newdomain.py:201-206 | spots that are rooms, as `/dropped` returns them, make `/arrive` succeed and put each item back in the room it was dropped in |
| Scenarios.TransferTwiceConflicts | hub.py:496-497 | repeating a successful hand-over to "inventory" is refused with 409 and changes nothing |
| Scenarios.LowerScoreRefused | hub.py:458-460 | after a score is stored, a lower one is refused with 409 and the stored score stays |
| Scenarios.NewcomerCannotDrop | hub.py:349-366 | a user who has just logged in is told they do not carry whatever they try to drop |
| Scenarios.RegisterOneDomainThenPlay | hub.py:163-170 | registering one domain with a single item and asking for play succeeds, with no users yet and that domain holding the outside loot |
| Scenarios.WalkToVipAndUnlock | newdomain.py:456-488 | from the entrance, north then east reaches the VIP lounge, where "vip123" unlocks the keypad |
| Scenarios.NewcomerAtEntrance | newdomain.py:154-177 | a first arrival at a fresh boutique stands at the entrance with the keypad locked |

## Left out

- HTTP, JSON decoding failures, the aiohttp client and timeouts are left out. A failed outgoing call appears only as the answer parameter it produces.
- The `/depart` call is left out of `Journey.TakeJourney`: its outcome is ignored by the source.
- `/arrive` is also left out of `Journey.TakeJourney` beyond the payload and the crash on a missing loot list: its failures are caught and only printed.
- All response text is left out: room and item descriptions, `region`, `inventory` and `score` rendering, `look` and `read` output. `look` and `read` are modelled as `Described`, with `read` crashing when it has no second word.
- `make_secret`, `random.choice`, `random.shuffle` and `randrange` are parameters.
- The descriptions and verbs of the outside-world items are left out, because only their names and depths are ever compared.
- The web front-end routes (`/`, `GET /mode`, `/domain`, the hub's `/newhub` placeholder) are left out: they render pages or proxy a registration.
- The boutique's `/newhub` handler is left out as a request flow. It calls the hub; `Boutique.Start` models the state it leaves behind.
- The `dressing_room_used` and `visited` fields of the boutique's user state are left out: they are never read. The boutique's global `prizes` is not a separate state: it is set from the `/arrive` payload and read only by that same call, which `Visit.AddPrizes` models as the payload's prize list.
- The hub's `grid` and each user's `open` list are left out: `grid` is only cleared on a path after a `return`, and `open` is written at login and never read.
- The commented-out `use` block of newdomain.py is left out: it never runs.
- `Text.ParseInt`: Python's `int()` also accepts surrounding whitespace, `_` digit separators and non-ASCII decimal digits. The model accepts only an optional sign followed by ASCII digits.
- `ShopCommand.Target`: an identifier written with non-ASCII decimal digits (a fullwidth ５, an Arabic-Indic ٣), with `_` digit separators (`1_0`) or with surrounding whitespace is read by the source as an id and by the model as a name, because `Text.ParseInt` accepts only a sign and ASCII digits.
- `ShopCommand.Tell`: `Text.Upper` maps only the characters whose upper case is an ASCII letter (a-z, the dotless ı, the long ſ) and keeps every other character. Python's other case mappings never produce "VIP123", so the keypad's answer is the source's for every code.
- `Json` has no objects, lists, booleans or floats. A bool `user` (Python's `True == 1`) and a JSON object as a `/dropped` reply are not modelled.
- `Scores.AwardScore`: `float()` parsing and NaN are left out. The score arrives as an optional real.
- Dictionary iteration order is kept only for registration order, which decides the loot holder and the login pick. Inventories and query answers are sets, not ordered lists.
- `ShopCommand.Use`: the `/score` call made on a win is not linked to the hub's score state.
- `ShopCommand.Take`: the `/query` answer and the `/transfer` outcome are parameters. When the query fails, the gold-card gate is skipped, as in the source.

=== FILE: boutique_command.dfy ===
/** The boutique's `/command` handler (newdomain.py:247-488) for the
    branches that change or gate state: `go`, `tell keypad`, `take` and
    `use`. `look` and `read` only render text. The hub's `/query` answer
    (`None` when it did not return 200) and the `/transfer` outcome are
    parameters. */
module ShopCommand {
  import opened Values
  import opened Protocol
  import opened Text
  import opened Boutique
  import opened Visit

  /** What a command answers, without its text. */
  datatype Reply =
    | NotHere          // the user never arrived
    | Described        // `look` and `read`
    | Confused         // "I don't know how to do that."
    | NoExit
    | Directive        // the journey exit: "$journey east"
    | Moved(room: string)
    | Unlocked
    | WrongCode
    | NoSuchItem
    | NeedAccess
    | NeedCard
    | TransferFailed
    | Taken(item: Brief)
    | NeedCode
    | NeedNecklace
    | Won

  /** How `take` names an item: by id when the word parses as an integer,
      otherwise by name. */
  datatype Key = ById(id: int) | ByName(name: string)

  predicate Matches(b: Brief, key: Key)
  {
    match key
    case ById(id) => b.id == id
    case ByName(name) => b.name == name
  }

  /** The first item that `key` names, if any. */
  function FirstMatching(items: seq<Brief>, key: Key): (r: Option<Brief>)
    ensures r.None? <==> forall i | 0 <= i < |items| :: !Matches(items[i], key)
    ensures r.Some? ==> exists i | 0 <= i < |items| :: items[i] == r.value && Matches(r.value, key)
                          && forall j | 0 <= j < i :: !Matches(items[j], key)
  {
    if |items| == 0 then None
    else if Matches(items[0], key) then Some(items[0])
    else
      var r := FirstMatching(items[1..], key);
      assert forall i | 1 <= i < |items| :: items[i] == items[1..][i - 1];
      r
  }

  /** The items whose id differs from `id`, in order. */
  function Without(items: seq<Brief>, id: int): (r: seq<Brief>)
    ensures forall b | b in r :: b in items && b.id != id
    ensures forall i | 0 <= i < |items| && items[i].id != id :: items[i] in r
    ensures |r| <= |items|
  {
    if |items| == 0 then []
    else (if items[0].id != id then [items[0]] else []) + Without(items[1..], id)
  }

  /** Some inventory id is written inside the gold card's id (a substring
      test on the decimal texts). */
  predicate CardDigits(inventory: seq<int>, card: int)
  {
    exists i | 0 <= i < |inventory| :: Contains(Show(card), Show(inventory[i]))
  }

  /** `go <direction>`: follow an exit of the current room. */
  function Go(s: Shop, user: int, words: seq<string>): (r: ShopStep<Reply>)
    requires Valid(s) && user in s.users && |words| > 0
    ensures r.out.Ok?
    ensures r.shop == s || (r.out.value.Moved? && r.shop == s.(users := s.users[user := s.users[user].(location := r.out.value.room)]))
    ensures var here := s.users[user].location;
            r.out.value.Moved? <==> |words| == 2 && words[1] in Exits(here) && Exits(here)[words[1]] != JourneyExit
    ensures var here := s.users[user].location;
            r.out.value.Moved? ==> r.out.value.room == Exits(here)[words[1]] && r.out.value.room in Rooms
    ensures var here := s.users[user].location;
            r.out.value == Directive <==> |words| == 2 && words[1] in Exits(here) && Exits(here)[words[1]] == JourneyExit
    ensures Valid(r.shop)
  {
    if |words| != 2 then ShopStep(s, Ok(Confused))
    else
      var exits := Exits(s.users[user].location);
      if words[1] !in exits then ShopStep(s, Ok(NoExit))
      else if exits[words[1]] == JourneyExit then ShopStep(s, Ok(Directive))
      else
        var room := exits[words[1]];
        ShopStep(s.(users := s.users[user := s.users[user].(location := room)]), Ok(Moved(room)))
  }

  /** The code `tell keypad` accepts, compared after `.upper()`. */
  const Code := "VIP123"

  /** A spelling of the code the keypad accepts: each letter in either
      case (the I also as a dotless i), followed by the digits. */
  predicate CodeSpelling(code: string)
  {
    && |code| == 6
    && (code[0] == 'v' || code[0] == 'V')
    && (code[1] == 'i' || code[1] == 'I' || code[1] == '\U{0131}')
    && (code[2] == 'p' || code[2] == 'P')
    && code[3] == '1' && code[4] == '2' && code[5] == '3'
  }

  /** The keypad's upper-casing comparison accepts exactly those spellings. */
  lemma CodeSpellings(code: string)
    ensures Upper(code) == Code <==> CodeSpelling(code)
  {
    var u := Upper(code);
    if |code| == 6 {
      assert u[0] == UpperChar(code[0]) && u[1] == UpperChar(code[1]) && u[2] == UpperChar(code[2]);
      assert u[3] == UpperChar(code[3]) && u[4] == UpperChar(code[4]) && u[5] == UpperChar(code[5]);
      SixEqual(u, Code);
      if u == Code {
        UpperCharIs(code[0], 'V');
        UpperCharIs(code[1], 'I');
        UpperCharIs(code[2], 'P');
        UpperCharIs(code[3], '1');
        UpperCharIs(code[4], '2');
        UpperCharIs(code[5], '3');
      }
    }
  }

  /** Two strings of six characters are equal exactly when each position is. */
  lemma SixEqual(a: string, b: string)
    requires |a| == 6 && |b| == 6
    ensures a == b <==> a[0] == b[0] && a[1] == b[1] && a[2] == b[2] && a[3] == b[3] && a[4] == b[4] && a[5] == b[5]
  {
    if a[0] == b[0] && a[1] == b[1] && a[2] == b[2] && a[3] == b[3] && a[4] == b[4] && a[5] == b[5] {
      assert forall i | 0 <= i < 6 :: a[i] == b[i];
    }
  }

  /** Which characters upper-case to a given letter or digit of the code. */
  lemma UpperCharIs(c: char, target: char)
    requires target in "VIP123"
    ensures UpperChar(c) == target <==>
              c == target || (target == 'V' && c == 'v') || (target == 'P' && c == 'p')
              || (target == 'I' && (c == 'i' || c == '\U{0131}'))
  {
  }

  /** `tell keypad <code>` (the caller has checked the three words). */
  function Tell(s: Shop, user: int, code: string): (r: ShopStep<Reply>)
    requires Valid(s) && user in s.users
    ensures r.out.Ok?
    ensures r.out.value == Unlocked <==> s.users[user].location == Vip && Upper(code) == Code
    ensures r.out.value == Unlocked ==> r.shop == s.(users := s.users[user := s.users[user].(keypadLocked := false)])
    ensures r.out.value != Unlocked ==> r.shop == s
    ensures Valid(r.shop)
  {
    if s.users[user].location == Vip then
      if Upper(code) == Code then
        ShopStep(s.(users := s.users[user := s.users[user].(keypadLocked := false)]), Ok(Unlocked))
      else ShopStep(s, Ok(WrongCode))
    else ShopStep(s, Ok(Confused))
  }

  /** What `take <identifier>` looks for: the id when the identifier
      parses as an integer, otherwise the name. */
  function KeyOf(identifier: string): (k: Key)
    ensures k.ById? <==> ParseInt(identifier).Some?
    ensures k.ById? ==> k.id == ParseInt(identifier).value
    ensures k.ByName? ==> k.name == identifier
  {
    match ParseInt(identifier)
    case Some(id) => ById(id)
    case None => ByName(identifier)
  }

  /** The item `take <identifier>` refers to in `items`: the first item
      with that id when the identifier parses as an integer, otherwise the
      first item with that name. */
  function Target(items: seq<Brief>, identifier: string): (r: Option<Brief>)
    ensures r.None? <==> forall i | 0 <= i < |items| :: !Matches(items[i], KeyOf(identifier))
    ensures r.Some? ==> exists i | 0 <= i < |items| :: items[i] == r.value && Matches(r.value, KeyOf(identifier))
                          && forall j | 0 <= j < i :: !Matches(items[j], KeyOf(identifier))
    ensures r.Some? ==> r.value in items
    ensures ParseInt(identifier).Some? ==> r == FirstMatching(items, ById(ParseInt(identifier).value))
    ensures ParseInt(identifier).None? ==> r == FirstMatching(items, ByName(identifier))
  {
    FirstMatching(items, KeyOf(identifier))
  }

  /** `take <identifier>`: find the item in the current room, apply the
      VIP gates, and on a successful transfer remove every item with its
      id from the room. */
  function Take(s: Shop, user: int, words: seq<string>, inventory: Option<seq<int>>, transferOk: bool): (r: ShopStep<Reply>)
    requires Valid(s) && user in s.users && |words| > 0
    ensures r.out.Ok?
    ensures !r.out.value.Taken? ==> r.shop == s
    ensures var here, st := s.users[user].location, s.users[user];
            && (r.out.value.Taken? <==>
                  && |words| == 2 && Target(s.rooms[here], words[1]).Some?
                  && !(here == Vip && st.keypadLocked)
                  && !(here == Vip && Target(s.rooms[here], words[1]).value.depth == Some(2)
                       && inventory.Some? && !CardDigits(inventory.value, s.ids[GoldCard]))
                  && transferOk)
            // the VIP lounge gives nothing while locked
            && (here == Vip && st.keypadLocked ==> !r.out.value.Taken?)
    ensures r.out.value.Taken? ==>
              var here := s.users[user].location;
              && r.out.value.item == Target(s.rooms[here], words[1]).value
              && r.shop == s.(rooms := s.rooms[here := Without(s.rooms[here], r.out.value.item.id)])
    ensures Valid(r.shop)
  {
    if |words| != 2 then ShopStep(s, Ok(Confused))
    else
      var here := s.users[user].location;
      match Target(s.rooms[here], words[1])
      case None => ShopStep(s, Ok(NoSuchItem))
      case Some(item) =>
        if here == Vip && s.users[user].keypadLocked then ShopStep(s, Ok(NeedAccess))
        else if here == Vip && item.depth == Some(2) && inventory.Some? && !CardDigits(inventory.value, s.ids[GoldCard]) then
          ShopStep(s, Ok(NeedCard))
        else if !transferOk then ShopStep(s, Ok(TransferFailed))
        else ShopStep(s.(rooms := s.rooms[here := Without(s.rooms[here], item.id)]), Ok(Taken(item)))
  }

  /** `use gold-card`. Every path that does not return a response (a
      short command, a failed query, another item, no card, outside the
      lounge) makes the handler return nothing, which the server answers
      with 500. The state never changes: the lock it clears is already
      clear. */
  function Use(s: Shop, user: int, words: seq<string>, inventory: Option<seq<int>>): (r: ShopStep<Reply>)
    requires Valid(s) && user in s.users
    ensures r.shop == s
    ensures r.out == Ok(Won) <==>
              && |words| >= 2 && words[1] == "gold-card" && inventory.Some?
              && s.ids[GoldCard] in inventory.value && s.ids[Necklace] in inventory.value
              && s.users[user].location == Vip && !s.users[user].keypadLocked
    ensures r.out.Err? ==> r.out.code == Crash
  {
    if |words| < 2 || inventory.None? then ShopStep(s, Err(Crash))
    else if !(words[1] == "gold-card" && s.ids[GoldCard] in inventory.value) then ShopStep(s, Err(Crash))
    else if s.users[user].location != Vip then ShopStep(s, Err(Crash))
    else if s.users[user].keypadLocked then ShopStep(s, Ok(NeedCode))
    else if s.ids[Necklace] in inventory.value then ShopStep(s, Ok(Won))
    else ShopStep(s, Ok(NeedNecklace))
  }

  /** The verbs the boutique's command handler recognises. */
  const Verbs: set<string> := {"look", "read", "use", "take", "go", "tell"}

  /** `/command` on the boutique. */
  function Command(s: Shop, user: int, words: seq<string>, inventory: Option<seq<int>>, transferOk: bool): (r: ShopStep<Reply>)
    requires Valid(s)
    ensures user !in s.users ==> r == ShopStep(s, Ok(NotHere))
    ensures user in s.users && s.users[user].departed ==> r == ShopStep(s, Err(Conflict))
    ensures user in s.users && !s.users[user].departed && |words| == 0 ==> r == ShopStep(s, Err(Crash))
    // each verb goes to its own handler; anything else, `tell` included
    // when it is not `tell keypad <code>`, falls through and answers 500
    ensures user in s.users && !s.users[user].departed && |words| > 0 ==>
              && (words[0] == "go" ==> r == Go(s, user, words))
              && (words[0] == "take" ==> r == Take(s, user, words, inventory, transferOk))
              && (words[0] == "use" ==> r == Use(s, user, words, inventory))
              && (words[0] == "tell" && |words| == 3 && words[1] == "keypad" ==> r == Tell(s, user, words[2]))
              && (words[0] == "look" ==> r == ShopStep(s, Ok(Described)))
              && (words[0] == "read" ==> r.shop == s && r.out.Ok? == (|words| >= 2))
              && (words[0] !in Verbs || (words[0] == "tell" && !(|words| == 3 && words[1] == "keypad")) ==>
                    r == ShopStep(s, Err(Crash)))
    // nobody else is touched, and only the user's own room loses items
    ensures r.shop.ids == s.ids && r.shop.secret == s.secret && r.shop.users.Keys == s.users.Keys
    ensures forall u | u in s.users && u != user :: r.shop.users[u] == s.users[u]
    ensures r.shop.rooms.Keys == s.rooms.Keys
    ensures forall room | room in s.rooms :: forall b | b in r.shop.rooms[room] :: b in s.rooms[room]
    ensures r.shop.rooms != s.rooms ==> r.out.Ok? && r.out.value.Taken?
    // the keypad lock is one-way
    ensures forall u | u in s.users && !s.users[u].keypadLocked :: !r.shop.users[u].keypadLocked
    ensures forall u | u in s.users && !r.shop.users[u].keypadLocked && s.users[u].keypadLocked ::
              u == user && r.out == Ok(Unlocked)
    ensures Valid(r.shop)
  {
    if user !in s.users then ShopStep(s, Ok(NotHere))
    else if s.users[user].departed then ShopStep(s, Err(Conflict))
    else if |words| == 0 then ShopStep(s, Err(Crash))
    else if words[0] == "look" then ShopStep(s, Ok(Described))
    else if words[0] == "read" then
      if |words| < 2 then ShopStep(s, Err(Crash)) else ShopStep(s, Ok(Described))
    else if words[0] == "use" then Use(s, user, words, inventory)
    else if words[0] == "take" then Take(s, user, words, inventory, transferOk)
    else if words[0] == "go" then Go(s, user, words)
    else if words[0] == "tell" && |words| == 3 && words[1] == "keypad" then Tell(s, user, words[2])
    else ShopStep(s, Err(Crash))
  }
}

=== FILE: boutique_state.dfy ===
/** The example domain server of newdomain.py: a fashion boutique of five
    rooms. Per-user state is the room, the VIP keypad lock and the
    departed flag; the room contents are one map shared by every user. */
module Boutique {
  import opened Values
  import opened Protocol

  const Entrance := "boutique-entrance"
  const Shopping := "shopping-area"
  const Accessories := "accessories"
  const Fitting := "fitting-rooms"
  const Vip := "vip-lounge"

  /** The exit that leaves the domain; it is not a room. */
  const JourneyExit := "journey"

  /** The keys of `locs`. */
  const Rooms: set<string> := {Entrance, Shopping, Accessories, Fitting, Vip}

  /** The `exits` of each room of `locs` (newdomain.py:67-93). */
  function Exits(room: string): (e: map<string, string>)
    ensures forall dir | dir in e :: e[dir] in Rooms || e[dir] == JourneyExit
    ensures room !in Rooms ==> e == map[]
  {
    if room == Entrance then map["north" := Shopping, "east" := Fitting, "south" := JourneyExit]
    else if room == Shopping then map["south" := Entrance, "up" := Accessories, "east" := Vip]
    else if room == Accessories then map["down" := Shopping]
    else if room == Fitting then map["west" := Entrance]
    else if room == Vip then map["west" := Shopping]
    else map[]
  }

  /** `UserState`. The `dressing_room_used` and `visited` fields are never
      read and are not kept. */
  datatype UserState = UserState(location: string, keypadLocked: bool, departed: bool)

  /** A user seen for the first time. */
  function NewUser(): (s: UserState)
    ensures s.location == Entrance && s.keypadLocked && !s.departed
  {
    UserState(Entrance, true, false)
  }

  /** The domain's globals: its secret and the hub ids of its five items
      (`item_ids`, in the order of `domain_items`), the users and the
      items lying in each room. */
  datatype Shop = Shop(secret: string, ids: seq<int>, users: map<int, UserState>, rooms: map<string, seq<Brief>>)

  /** The five item templates the domain registers, in order. */
  const Flyer := 0
  const GoldCard := 1
  const Lipbalm := 2
  const Magazine := 3
  const Necklace := 4

  /** The flyer and the magazine as the domain places them. */
  function FlyerItem(s: Shop): Brief
    requires |s.ids| == 5
  {
    Brief(s.ids[Flyer], "sales-flyer", None)
  }

  function MagazineItem(s: Shop): Brief
    requires |s.ids| == 5
  {
    Brief(s.ids[Magazine], "fashion-magazine", None)
  }

  /** Every room, with no items. */
  function EmptyRooms(): (m: map<string, seq<Brief>>)
    ensures m.Keys == Rooms && forall r | r in m :: m[r] == []
  {
    map r | r in Rooms :: []
  }

  /** The state `/newhub` leaves behind once the hub has registered the
      domain: no users, and the flyer at the entrance. */
  function Start(secret: string, ids: seq<int>): (s: Shop)
    requires |ids| == 5
    ensures s.users == map[] && s.rooms.Keys == Rooms && s.ids == ids && s.secret == secret
    ensures s.rooms[Entrance] == [FlyerItem(s)]
    ensures forall r | r in Rooms && r != Entrance :: s.rooms[r] == []
  {
    var s := Shop(secret, ids, map[], EmptyRooms());
    s.(rooms := s.rooms[Entrance := [FlyerItem(s)]])
  }

  /** The state every reachable configuration satisfies. */
  ghost predicate Valid(s: Shop)
  {
    && |s.ids| == 5
    && s.rooms.Keys == Rooms
    && (forall u | u in s.users :: s.users[u].location in Rooms)
  }

  lemma StartValid(secret: string, ids: seq<int>)
    requires |ids| == 5
    ensures Valid(Start(secret, ids))
  {
  }
}

=== FILE: boutique_system.dfy ===
/** The boutique as a whole: its four endpoints applied in sequence. */
module ShopSystem {
  import opened Values
  import opened Protocol
  import opened Boutique
  import opened Visit
  import ShopCommand

  /** One request to the domain, with the hub answers it depends on. */
  datatype ShopOp =
    | DepartOp(secret: string, user: int)
    | ArriveOp(secret: string, user: int, owned: seq<Brief>, dropped: seq<Placed>, prize: seq<Brief>)
    | DroppedOp(secret: string, user: int, item: Option<Brief>)
    | CommandOp(user: int, words: seq<string>, inventory: Option<seq<int>>, transferOk: bool)

  /** What every request guarantees: the state stays valid, users are
      never forgotten, and an open keypad never locks again. */
  ghost predicate Advances(s: Shop, s': Shop)
  {
    && Valid(s')
    && s'.ids == s.ids && s'.secret == s.secret
    && s.users.Keys <= s'.users.Keys
    && (forall u | u in s.users && !s.users[u].keypadLocked :: !s'.users[u].keypadLocked)
  }

  function Apply(s: Shop, op: ShopOp): (s': Shop)
    requires Valid(s)
    ensures Advances(s, s')
  {
    match op
    case DepartOp(secret, user) => Depart(s, secret, user).shop
    case ArriveOp(secret, user, owned, dropped, prize) => Arrive(s, secret, user, owned, dropped, prize).shop
    case DroppedOp(secret, user, item) => Dropped(s, secret, user, item).shop
    case CommandOp(user, words, inventory, transferOk) => ShopCommand.Command(s, user, words, inventory, transferOk).shop
  }

  /** The state after serving `ops` in order. It has the same shape as the
      hub's `HubSystem.Run`; each keeps its own server's `Valid` as the
      precondition of every step, which a shared fold would have to take as
      a parameter. */
  function Run(s: Shop, ops: seq<ShopOp>): (s': Shop)
    requires Valid(s)
    ensures Valid(s')
    decreases |ops|
  {
    if |ops| == 0 then s else Run(Apply(s, ops[0]), ops[1..])
  }

  /** Over any run: the state stays valid (every user stands in a room),
      users are never forgotten and an open keypad stays open. */
  lemma {:induction false} RunAdvances(s: Shop, ops: seq<ShopOp>)
    requires Valid(s)
    ensures Advances(s, Run(s, ops))
    decreases |ops|
  {
    if |ops| > 0 {
      var s1 := Apply(s, ops[0]);
      RunAdvances(s1, ops[1..]);
    }
  }

  /** A spot `/dropped` answers is a room, so when the hub later sends
      the items back with those spots, `/arrive` gets through and puts each
      item in the room it was dropped in. */
  lemma DroppedComeBack(s: Shop, secret: string, user: int, owned: seq<Brief>, dropped: seq<Placed>, prize: seq<Brief>)
    requires Valid(s) && secret == s.secret
    requires forall i | 0 <= i < |dropped| :: dropped[i].location.Str? && dropped[i].location.s in Rooms
    ensures var r := Arrive(s, secret, user, owned, dropped, prize);
            && r.out.Ok?
            && forall i | 0 <= i < |dropped| :: dropped[i].item in r.shop.rooms[dropped[i].location.s]
  {
    var r := Arrive(s, secret, user, owned, dropped, prize);
    assert AllPlaced(dropped);
    forall i | 0 <= i < |dropped|
      ensures dropped[i].item in r.shop.rooms[dropped[i].location.s]
    {
      var room := dropped[i].location.s;
      assert SpotRoom(dropped[i]) == Some(room);
      assert dropped[i].item in DroppedIn(dropped, room);
      assert r.shop.rooms[room] == Expected(s, owned, dropped, prize, room);
    }
  }
}

=== FILE: boutique_visit.dfy ===
/** The boutique's hub-facing endpoints: `/depart` (newdomain.py:98-112),
    `/arrive` (newdomain.py:154-219), which rebuilds every room's contents
    from the hub's payload, and `/dropped` (newdomain.py:221-244). */
module Visit {
  import opened Values
  import opened Protocol
  import opened Boutique

  /** A transition's new state and the answer. */
  datatype ShopStep<+T> = ShopStep(shop: Shop, out: Result<T>)

  /** `/depart`: mark a known user as gone; nothing else changes. */
  function Depart(s: Shop, secret: string, user: int): (r: ShopStep<()>)
    ensures secret != s.secret ==> r == ShopStep(s, Err(Forbidden))
    ensures secret == s.secret ==> r.out == Ok(())
    ensures r.shop.rooms == s.rooms && r.shop.ids == s.ids && r.shop.secret == s.secret
    ensures r.shop.users.Keys == s.users.Keys
    ensures forall u | u in s.users && u != user :: r.shop.users[u] == s.users[u]
    ensures user in s.users ==>
              var was, now := s.users[user], r.shop.users[user];
              && now.location == was.location && now.keypadLocked == was.keypadLocked
              && now.departed == (secret == s.secret || was.departed)
    ensures Valid(s) ==> Valid(r.shop)
  {
    if secret != s.secret then ShopStep(s, Err(Forbidden))
    else if user in s.users then
      ShopStep(s.(users := s.users[user := s.users[user].(departed := true)]), Ok(()))
    else ShopStep(s, Ok(()))
  }

  /** The room `/arrive` puts a prize of this depth in, if any. */
  function RoomForDepth(depth: int): (r: Option<string>)
    ensures r.Some? ==> r.value in Rooms
    ensures r == Some(Accessories) <==> depth == 0
    ensures r == Some(Vip) <==> depth == 1 || depth == 2
  {
    if depth == 0 then Some(Accessories)
    else if depth == 1 || depth == 2 then Some(Vip)
    else None
  }

  /** The room a prize belongs in; a missing depth counts as 0. */
  function PrizeRoom(item: Brief): Option<string>
  {
    RoomForDepth(item.depth.GetOr(0))
  }

  /** The prizes that belong in `room`, in payload order. */
  function PrizesIn(prize: seq<Brief>, room: string): (p: seq<Brief>)
    ensures forall b | b in p :: b in prize && PrizeRoom(b) == Some(room)
    ensures forall i | 0 <= i < |prize| && PrizeRoom(prize[i]) == Some(room) :: prize[i] in p
  {
    if |prize| == 0 then []
    else (if PrizeRoom(prize[0]) == Some(room) then [prize[0]] else []) + PrizesIn(prize[1..], room)
  }

  /** The loop over `prizes`: each one appended to its room in turn. */
  function AddPrizes(rooms: map<string, seq<Brief>>, prize: seq<Brief>): (m: map<string, seq<Brief>>)
    requires Rooms <= rooms.Keys
    ensures m.Keys == rooms.Keys
  {
    if |prize| == 0 then rooms
    else
      var next := match PrizeRoom(prize[0])
                  case Some(room) => rooms[room := rooms[room] + [prize[0]]]
                  case None => rooms;
      AddPrizes(next, prize[1..])
  }

  /** Placing prizes one at a time leaves each room with its old contents
      followed by exactly its prizes, in payload order. */
  lemma {:induction false} AddPrizesPerRoom(rooms: map<string, seq<Brief>>, prize: seq<Brief>)
    requires Rooms <= rooms.Keys
    ensures forall r | r in rooms :: AddPrizes(rooms, prize)[r] == rooms[r] + PrizesIn(prize, r)
  {
    if |prize| > 0 {
      var next := match PrizeRoom(prize[0])
                  case Some(room) => rooms[room := rooms[room] + [prize[0]]]
                  case None => rooms;
      AddPrizesPerRoom(next, prize[1..]);
      forall r | r in rooms ensures AddPrizes(rooms, prize)[r] == rooms[r] + PrizesIn(prize, r) {
        var mine := if PrizeRoom(prize[0]) == Some(r) then [prize[0]] else [];
        assert next[r] == rooms[r] + mine;
        assert PrizesIn(prize, r) == mine + PrizesIn(prize[1..], r);
        assert (rooms[r] + mine) + PrizesIn(prize[1..], r) == rooms[r] + (mine + PrizesIn(prize[1..], r));
      }
    }
  }

  /** The room a dropped item's spot names, if it names one. */
  function SpotRoom(d: Placed): Option<string>
  {
    if d.location.Str? && d.location.s in Rooms then Some(d.location.s) else None
  }

  /** The dropped items whose spot is `room`, in payload order. */
  function DroppedIn(dropped: seq<Placed>, room: string): (p: seq<Brief>)
    ensures forall i | 0 <= i < |dropped| && SpotRoom(dropped[i]) == Some(room) :: dropped[i].item in p
  {
    if |dropped| == 0 then []
    else (if SpotRoom(dropped[0]) == Some(room) then [dropped[0].item] else []) + DroppedIn(dropped[1..], room)
  }

  /** Every dropped item names a room (so `locs[loc]` cannot raise). */
  predicate AllPlaced(dropped: seq<Placed>)
  {
    forall i | 0 <= i < |dropped| :: SpotRoom(dropped[i]).Some?
  }

  /** The loop over `dropped`: each item appended to the room its spot
      names. A spot that is not a room raises `KeyError` and stops the loop
      with the rooms filled so far; the flag says whether it got through. */
  function AddDropped(rooms: map<string, seq<Brief>>, dropped: seq<Placed>): (r: (map<string, seq<Brief>>, bool))
    requires Rooms <= rooms.Keys
    ensures r.0.Keys == rooms.Keys
    ensures r.1 <==> AllPlaced(dropped)
  {
    if |dropped| == 0 then (rooms, true)
    else
      match SpotRoom(dropped[0])
      case None => (rooms, false)
      case Some(room) =>
        var rest := AddDropped(rooms[room := rooms[room] + [dropped[0].item]], dropped[1..]);
        assert AllPlaced(dropped) <==> AllPlaced(dropped[1..]) by {
          assert forall i | 1 <= i < |dropped| :: dropped[i] == dropped[1..][i - 1];
        }
        rest
  }

  lemma AllPlacedTail(dropped: seq<Placed>)
    requires |dropped| > 0 && AllPlaced(dropped)
    ensures AllPlaced(dropped[1..])
  {
    assert forall i | 0 <= i < |dropped[1..]| :: dropped[1..][i] == dropped[i + 1];
  }

  /** When every spot is a room, each room ends up with its old contents
      followed by exactly the items dropped there, in payload order. */
  lemma {:induction false} AddDroppedPerRoom(rooms: map<string, seq<Brief>>, dropped: seq<Placed>)
    requires Rooms <= rooms.Keys && AllPlaced(dropped)
    ensures forall r | r in rooms :: AddDropped(rooms, dropped).0[r] == rooms[r] + DroppedIn(dropped, r)
  {
    if |dropped| > 0 {
      var room := SpotRoom(dropped[0]).value;
      var next := rooms[room := rooms[room] + [dropped[0].item]];
      AllPlacedTail(dropped);
      AddDroppedPerRoom(next, dropped[1..]);
      assert AddDropped(rooms, dropped).0 == AddDropped(next, dropped[1..]).0;
      forall r | r in rooms ensures AddDropped(rooms, dropped).0[r] == rooms[r] + DroppedIn(dropped, r) {
        var mine := if r == room then [dropped[0].item] else [];
        assert next[r] == rooms[r] + mine;
        assert DroppedIn(dropped, r) == mine + DroppedIn(dropped[1..], r);
        assert (rooms[r] + mine) + DroppedIn(dropped[1..], r) == rooms[r] + (mine + DroppedIn(dropped[1..], r));
      }
    }
  }

  /** Some owned or dropped item is called `name`. */
  predicate Mentions(owned: seq<Brief>, dropped: seq<Placed>, name: string)
  {
    (exists i | 0 <= i < |owned| :: owned[i].name == name) || (exists i | 0 <= i < |dropped| :: dropped[i].item.name == name)
  }

  /** What `/arrive` leaves in `room` when every dropped spot is a room:
      the magazine (shopping area) unless the user owns or dropped one, the
      prizes of that room, the items dropped there, and the flyer
      (entrance) unless the user owns or dropped one. */
  function Expected(s: Shop, owned: seq<Brief>, dropped: seq<Placed>, prize: seq<Brief>, room: string): seq<Brief>
    requires |s.ids| == 5
  {
    (if room == Shopping && !Mentions(owned, dropped, "fashion-magazine") then [MagazineItem(s)] else [])
    + PrizesIn(prize, room)
    + DroppedIn(dropped, room)
    + (if room == Entrance && !Mentions(owned, dropped, "sales-flyer") then [FlyerItem(s)] else [])
  }

  /** `/arrive`: with the right secret, reset (or create) the user's state,
      then rebuild every room. A spot that is not a room crashes the
      handler (500) after the user's state and the earlier rooms were
      already updated. */
  function Arrive(s: Shop, secret: string, user: int, owned: seq<Brief>, dropped: seq<Placed>, prize: seq<Brief>): (r: ShopStep<()>)
    requires Valid(s)
    ensures secret != s.secret ==> r == ShopStep(s, Err(Forbidden))
    ensures secret == s.secret ==>
              && r.shop.users.Keys == s.users.Keys + {user}
              && (forall u | u in s.users && u != user :: r.shop.users[u] == s.users[u])
              && r.shop.users[user].location == Entrance && !r.shop.users[user].departed
              // the lock survives leaving and coming back
              && r.shop.users[user].keypadLocked == (user !in s.users || s.users[user].keypadLocked)
              && r.shop.ids == s.ids && r.shop.secret == s.secret
              && (r.out.Ok? <==> AllPlaced(dropped))
              && (r.out.Err? ==> r.out.code == Crash)
              && r.shop.rooms.Keys == Rooms
              && (r.out.Ok? ==> forall room | room in Rooms :: r.shop.rooms[room] == Expected(s, owned, dropped, prize, room))
    ensures Valid(r.shop)
  {
    if secret != s.secret then ShopStep(s, Err(Forbidden))
    else
      var me := if user in s.users then s.users[user].(departed := false, location := Entrance) else NewUser();
      var (rooms, ok) := Placement(s, owned, dropped, prize);
      ShopStep(s.(users := s.users[user := me], rooms := rooms), if ok then Ok(()) else Err(Crash))
  }

  /** The rooms as `/arrive` rebuilds them, and whether it got to the end. */
  function Placement(s: Shop, owned: seq<Brief>, dropped: seq<Placed>, prize: seq<Brief>): (r: (map<string, seq<Brief>>, bool))
    requires |s.ids| == 5
    ensures r.0.Keys == Rooms
    ensures r.1 <==> AllPlaced(dropped)
    ensures r.1 ==> forall room | room in Rooms :: r.0[room] == Expected(s, owned, dropped, prize, room)
  {
    var cleared := EmptyRooms();
    var withMag := if Mentions(owned, dropped, "fashion-magazine") then cleared
                   else cleared[Shopping := [MagazineItem(s)]];
    var withPrizes := AddPrizes(withMag, prize);
    var (withDropped, ok) := AddDropped(withPrizes, dropped);
    if !ok then (withDropped, false)
    else
      var rooms := if Mentions(owned, dropped, "sales-flyer") then withDropped
                   else withDropped[Entrance := withDropped[Entrance] + [FlyerItem(s)]];
      AddPrizesPerRoom(withMag, prize);
      AddDroppedPerRoom(withPrizes, dropped);
      (rooms, true)
  }

  /** `/dropped`: with the right secret and a known user, append the item
      (without its depth) to the user's room and answer with the room's
      name as the spot. No departed check is made. */
  function Dropped(s: Shop, secret: string, user: int, item: Option<Brief>): (r: ShopStep<Json>)
    requires Valid(s)
    ensures secret != s.secret || user !in s.users ==> r == ShopStep(s, Err(Forbidden))
    ensures secret == s.secret && user in s.users ==>
              var room := s.users[user].location;
              && r.out == Ok(Str(room))
              && r.shop.users == s.users && r.shop.ids == s.ids && r.shop.secret == s.secret
              && r.shop.rooms.Keys == s.rooms.Keys
              && (forall other | other in s.rooms && other != room :: r.shop.rooms[other] == s.rooms[other])
              && r.shop.rooms[room] == s.rooms[room] + (if item.Some? then [Brief(item.value.id, item.value.name, None)] else [])
    // the spot handed to the hub is always a room
    ensures r.out.Ok? ==> r.out.value.Str? && r.out.value.s in Rooms
    ensures Valid(r.shop)
  {
    if secret != s.secret || user !in s.users then ShopStep(s, Err(Forbidden))
    else
      var room := s.users[user].location;
      var rooms := match item
                   case Some(i) => s.rooms[room := s.rooms[room] + [Brief(i.id, i.name, None)]]
                   case None => s.rooms;
      ShopStep(s.(rooms := rooms), Ok(Str(room)))
  }
}

=== FILE: hub_arrival.dfy ===
/** `arrive` (hub.py:312-347), the hub's side of telling a domain that a
    user has entered it, and `login` (hub.py:200-217), which creates the
    user and sends them to a random domain. */
module Arrival {
  import opened Values
  import opened HubState
  import opened Protocol

  /** The `/arrive` body without the secret and the direction. The three
      first lists are built from the inventory dictionary; their order is
      dictionary order and is not modelled. */
  datatype Payload = Payload(owned: set<Brief>, carried: set<Brief>, dropped: set<Placed>, prize: seq<Brief>)

  /** The fields the hub discloses about a held item (no depth). */
  function BriefOf(ts: map<int, Template>, t: int): Brief
    requires t in ts
  {
    Brief(t, ts[t].name, None)
  }

  /** The loot the user has never had an entry for, in loot order, with depths. */
  function Unheld(ts: map<int, Template>, loot: seq<int>, inv: map<int, Location>): (s: seq<Brief>)
    requires forall t | t in loot :: t in ts
    ensures forall b | b in s :: b.id in loot && b.id !in inv && b == Brief(b.id, ts[b.id].name, ts[b.id].depth)
    ensures forall t | t in loot && t !in inv :: Brief(t, ts[t].name, ts[t].depth) in s
    ensures |s| <= |loot|
  {
    if |loot| == 0 then []
    else
      assert forall t | t in loot[1..] :: t in loot;
      var rest := Unheld(ts, loot[1..], inv);
      var t := loot[0];
      assert t in loot;
      if t in inv then rest else [Brief(t, ts[t].name, ts[t].depth)] + rest
  }

  /** The partition `arrive` computes of user `uid`'s items for domain
      `dest`: carried items native to `dest`, carried foreign items, items
      dropped in `dest` with their spots, and the unheld loot of `dest`. */
  function ArrivePayload(h: Hub, uid: int, dest: int): (p: Payload)
    requires Valid(h) && uid in h.users && dest in h.domains && h.domains[dest].loot.Some?
    ensures forall b | b in p.owned :: b.id in h.users[uid].inventory && h.users[uid].inventory[b.id] == Carried
              && h.templates[b.id].home == dest && b == BriefOf(h.templates, b.id)
    ensures forall b | b in p.carried :: b.id in h.users[uid].inventory && h.users[uid].inventory[b.id] == Carried
              && h.templates[b.id].home != dest && b == BriefOf(h.templates, b.id)
    ensures forall t | t in h.users[uid].inventory && h.users[uid].inventory[t] == Carried ::
              BriefOf(h.templates, t) in (if h.templates[t].home == dest then p.owned else p.carried)
    ensures forall d | d in p.dropped :: d.item.id in h.users[uid].inventory
              && h.users[uid].inventory[d.item.id] == Dropped(dest, d.location) && d.item == BriefOf(h.templates, d.item.id)
    ensures forall t, s | t in h.users[uid].inventory && h.users[uid].inventory[t] == Dropped(dest, s) ::
              Placed(BriefOf(h.templates, t), s) in p.dropped
    ensures forall b | b in p.prize :: b.id in h.domains[dest].loot.value && b.id !in h.users[uid].inventory
              && b.id in h.templates && b == Brief(b.id, h.templates[b.id].name, h.templates[b.id].depth)
    ensures forall t | t in h.domains[dest].loot.value && t !in h.users[uid].inventory ::
              t in h.templates && Brief(t, h.templates[t].name, h.templates[t].depth) in p.prize
  {
    var u := h.users[uid];
    assert UserValid(h, u);
    var inv := u.inventory;
    var ts := h.templates;
    Payload(
      set t | t in inv && inv[t] == Carried && ts[t].home == dest :: BriefOf(ts, t),
      set t | t in inv && inv[t] == Carried && ts[t].home != dest :: BriefOf(ts, t),
      set t | t in inv && inv[t].Dropped? && inv[t].domain == dest :: Placed(BriefOf(ts, t), inv[t].spot),
      Unheld(ts, h.domains[dest].loot.value, inv))
  }

  /** `arrive` on the hub's state: `None` when `dest` never got a loot list
      (`domains[dest]['loot']` raises), otherwise the payload posted to the
      domain and the state with a default score of 0 for `dest`. Whether
      the post succeeds is only logged, so it does not appear here. */
  function Arrive(h: Hub, uid: int, dest: int): (r: Option<(Hub, Payload)>)
    requires Valid(h) && uid in h.users && dest in h.domains
    ensures r.None? <==> h.domains[dest].loot.None?
    ensures r.Some? ==> uid in r.value.0.users
    ensures r.Some? ==>
              var u, u' := h.users[uid], r.value.0.users[uid];
              && r.value.0 == h.(users := h.users[uid := u'])
              && u' == u.(score := u'.score)
              && dest in u'.score
              && (forall d :: StoredScore(r.value.0, uid, d) == StoredScore(h, uid, d))
              && r.value.1 == ArrivePayload(h, uid, dest)
    ensures r.Some? ==> Valid(r.value.0)
  {
    match h.domains[dest].loot
    case None => None
    case Some(_) =>
      var u := h.users[uid];
      var u' := if dest in u.score then u else u.(score := u.score[dest := 0.0]);
      var h' := h.(users := h.users[uid := u']);
      assert Valid(h') by {
        forall v | v in h'.users ensures UserValid(h', h'.users[v]) {
          assert UserValid(h, h.users[v]);
        }
      }
      Some((h', ArrivePayload(h, uid, dest)))
  }

  /** In play, some domain is registered, so the registration order is not empty. */
  lemma PlayHasDomain(h: Hub)
    requires Valid(h) && h.mode == Play
    ensures |h.order| > 0 && h.order[0] in h.domains
  {
    var d := SomeKey(h.domains);
    assert d in h.order;
  }

  /** The state with a fresh user `uid`, who starts in domain `at` with
      nothing, no scores and no progress. */
  function AddUser(h: Hub, secret: string, at: int): (h': Hub)
    requires Valid(h) && at in h.domains
    ensures |h.users| !in h.users
    ensures h' == h.(users := h.users[|h.users| := User(secret, at, map[], 0, map[], {})])
    ensures h'.users.Keys == h.users.Keys + {|h.users|}
    ensures Valid(h')
  {
    var uid := |h.users|;
    var h1 := h.(users := h.users[uid := User(secret, at, map[], 0, map[], {})]);
    AppendUser(h, User(secret, at, map[], 0, map[], {}));
    assert h1.users.Keys == h.users.Keys + {uid};
    h1
  }

  /** `login`. `secret` is the `make_secret()` draw and `pick` the
      `random.choice` over the domains, as an index into registration
      order (reduced modulo the number of domains). The new user is
      stored before `arrive` runs, so a crash in `arrive` still leaves it. */
  function Login(h: Hub, secret: string, pick: nat): (r: Step<(int, string)>)
    requires Valid(h)
    ensures h.mode != Play ==> r == Step(h, Err(Conflict))
    ensures h.mode == Play ==>
              var uid := |h.users|;
              && uid !in h.users
              && r.hub.users.Keys == h.users.Keys + {uid}
              && (forall v | v in h.users :: r.hub.users[v] == h.users[v])
              && r.hub.users[uid].secret == secret
              && r.hub.users[uid].at in h.domains
              && r.hub.users[uid].inventory == map[]
              && r.hub.users[uid].hashad == {}
              && r.hub.users[uid].domstate == 0
              && (forall d :: StoredScore(r.hub, uid, d) == 0.0)
              && r.hub.domains == h.domains && r.hub.templates == h.templates && r.hub.mode == h.mode
              && (r.out.Ok? <==> h.domains[r.hub.users[uid].at].loot.Some?)
              && (r.out.Ok? ==> r.out.value == (uid, secret))
              && (r.out.Err? ==> r.out.code == Crash)
    ensures Valid(r.hub)
  {
    if h.mode != Play then Step(h, Err(Conflict))
    else
      PlayHasDomain(h);
      var uid := |h.users|;
      var at := h.order[pick % |h.order|];
      var h1 := AddUser(h, secret, at);
      match Arrive(h1, uid, at)
      case None => Step(h1, Err(Crash))
      case Some((h2, _)) => Step(h2, Ok((uid, secret)))
  }
}

=== FILE: hub_command.dfy ===
/** `handle_command` (hub.py:220-244) and the two read-only commands
    `inventory` and `score` (hub.py:292-309): the user-facing `/command`
    endpoint. */
module Command {
  import opened Values
  import opened HubState
  import opened Guard
  import Journey
  import Drop

  /** The `command` field of a request as the type checks see it. */
  datatype CommandField = Missing | NotList | NotWords | Words(words: seq<string>)

  /** What a command answers, without its HTML rendering. */
  datatype Reply =
    | RegionInfo(domain: int)
    | JourneyReport(trip: Journey.Trip)
    | Carrying(items: set<int>)
    | ScoreBoard(user: int, scores: map<int, real>, stage: int)
    | DropReport(outcome: Drop.DropOutcome)
    | Unknown

  /** `/command`: authenticate with `checkuid`, check the command field
      (400), then dispatch on the first word. An empty word list makes
      `cmd[0]` raise (500). `reply` is what the current domain would answer
      to `/dropped`. */
  function HandleCommand(h: Hub, user: Option<Json>, secret: Option<Json>, command: CommandField,
                         reply: Option<Json>): (r: Step<Reply>)
    requires Valid(h)
    ensures CheckUser(h, user, secret).Err? ==> r == Step(h, Err(CheckUser(h, user, secret).code))
    ensures CheckUser(h, user, secret).Ok? && !command.Words? ==> r == Step(h, Err(BadRequest))
    ensures CheckUser(h, user, secret).Ok? && command == Words([]) ==> r == Step(h, Err(Crash))
    // only `journey` and `drop` can change anything
    ensures !(command.Words? && |command.words| > 0 && command.words[0] in {"journey", "drop"}) ==> r.hub == h
    ensures CheckUser(h, user, secret).Ok? && command.Words? && |command.words| > 0 ==>
              var uid, words := CheckUser(h, user, secret).value, command.words;
              && (words[0] == "inventory" ==> r.out == Ok(Carrying(Drop.Gear(h.users[uid]))))
              && (words[0] == "score" ==> r.out == Ok(ScoreBoard(uid, h.users[uid].score, h.users[uid].domstate)))
              && (words[0] == "region" ==> r.out == Ok(RegionInfo(h.users[uid].at)))
              && (words[0] !in {"region", "journey", "inventory", "score", "drop"} ==> r.out == Ok(Unknown))
              && (words[0] == "journey" ==> r.hub == Journey.TakeJourney(h, uid, words[1..]).hub)
              && (words[0] == "journey" ==> r.out == Reported(Journey.TakeJourney(h, uid, words[1..]).out))
              && (words[0] == "journey" && !(|words| == 2 && Journey.IsDirection(words[1])) ==> r == Step(h, Err(Forbidden)))
              && (words[0] == "drop" ==> r.hub == Drop.DropItem(h, uid, words[1..], reply).hub)
              && (words[0] == "drop" ==> r.out == Ok(DropReport(Drop.DropItem(h, uid, words[1..], reply).out.value)))
    ensures r.hub.users.Keys == h.users.Keys && r.hub.mode == h.mode && r.hub.templates == h.templates
    ensures forall u, d :: StoredScore(r.hub, u, d) == StoredScore(h, u, d)
    ensures forall u | u in h.users :: r.hub.users[u].domstate >= h.users[u].domstate
    ensures Valid(r.hub)
  {
    match CheckUser(h, user, secret)
    case Err(code) => Step(h, Err(code))
    case Ok(uid) =>
      match command
      case Words(words) =>
        if |words| == 0 then Step(h, Err(Crash)) else Dispatch(h, uid, words, reply)
      case _ => Step(h, Err(BadRequest))
  }

  /** The dispatch on the first word, for an authenticated user. */
  function Dispatch(h: Hub, uid: int, words: seq<string>, reply: Option<Json>): (r: Step<Reply>)
    requires Valid(h) && uid in h.users && h.mode == Play && |words| > 0
    ensures words[0] !in {"journey", "drop"} ==> r.hub == h
    ensures words[0] == "inventory" ==> r.out == Ok(Carrying(Drop.Gear(h.users[uid])))
    ensures words[0] == "score" ==> r.out == Ok(ScoreBoard(uid, h.users[uid].score, h.users[uid].domstate))
    ensures words[0] == "region" ==> r.out == Ok(RegionInfo(h.users[uid].at))
    ensures words[0] !in {"region", "journey", "inventory", "score", "drop"} ==> r.out == Ok(Unknown)
    ensures words[0] == "journey" ==> r.hub == Journey.TakeJourney(h, uid, words[1..]).hub
    ensures words[0] == "journey" ==> r.out == Reported(Journey.TakeJourney(h, uid, words[1..]).out)
    ensures words[0] == "drop" ==> r.hub == Drop.DropItem(h, uid, words[1..], reply).hub
    ensures words[0] == "drop" ==> r.out == Ok(DropReport(Drop.DropItem(h, uid, words[1..], reply).out.value))
    ensures r.hub.users.Keys == h.users.Keys && r.hub.mode == h.mode && r.hub.templates == h.templates
    ensures forall u, d :: StoredScore(r.hub, u, d) == StoredScore(h, u, d)
    ensures forall u | u in h.users :: r.hub.users[u].domstate >= h.users[u].domstate
    ensures Valid(r.hub)
  {
    var me := h.users[uid];
    if words[0] == "region" then Step(h, Ok(RegionInfo(me.at)))
    else if words[0] == "journey" then JourneyCommand(h, uid, words[1..])
    else if words[0] == "inventory" then Step(h, Ok(Carrying(Drop.Gear(me))))
    else if words[0] == "score" then Step(h, Ok(ScoreBoard(uid, me.score, me.domstate)))
    else if words[0] == "drop" then DropCommand(h, uid, words[1..], reply)
    else Step(h, Ok(Unknown))
  }

  /** `journey` as a command. */
  function JourneyCommand(h: Hub, uid: int, rest: seq<string>): (r: Step<Reply>)
    requires Valid(h) && uid in h.users && h.mode == Play
    ensures r.hub == Journey.TakeJourney(h, uid, rest).hub
    ensures r.out == Reported(Journey.TakeJourney(h, uid, rest).out)
    // a word other than one cardinal direction is refused before anything moves
    ensures !(|rest| == 1 && Journey.IsDirection(rest[0])) ==> r == Step(h, Err(Forbidden))
    // a domain without a loot list makes the closing `arrive` crash
    ensures |rest| == 1 && Journey.IsDirection(rest[0]) ==>
              (r.out == Err(Crash) <==> h.domains[h.users[uid].at].loot.None?)
    ensures r.hub.users.Keys == h.users.Keys && r.hub.mode == h.mode && r.hub.templates == h.templates
    ensures forall u, d :: StoredScore(r.hub, u, d) == StoredScore(h, u, d)
    ensures forall u | u in h.users :: r.hub.users[u].domstate >= h.users[u].domstate
    ensures Valid(r.hub)
  {
    var s := Journey.TakeJourney(h, uid, rest);
    Journey.JourneyAdvancesOnly(h, uid, rest);
    Step(s.hub, Reported(s.out))
  }

  /** A journey's outcome as the command's answer: the trip report, or the
      journey's refusal code unchanged. */
  function Reported(out: Result<Journey.Trip>): (r: Result<Reply>)
    ensures r.Ok? <==> out.Ok?
    ensures out.Ok? ==> r == Ok(JourneyReport(out.value))
    ensures out.Err? ==> r == Err(out.code)
  {
    match out
    case Ok(t) => Ok(JourneyReport(t))
    case Err(c) => Err(c)
  }

  /** `drop` as a command. */
  function DropCommand(h: Hub, uid: int, rest: seq<string>, reply: Option<Json>): (r: Step<Reply>)
    requires Valid(h) && uid in h.users
    ensures r.hub == Drop.DropItem(h, uid, rest, reply).hub
    ensures r.out == Ok(DropReport(Drop.DropItem(h, uid, rest, reply).out.value))
    ensures r.hub.users.Keys == h.users.Keys && r.hub.mode == h.mode && r.hub.templates == h.templates
    ensures forall u, d :: StoredScore(r.hub, u, d) == StoredScore(h, u, d)
    ensures forall u | u in h.users :: r.hub.users[u].domstate == h.users[u].domstate
    ensures Valid(r.hub)
  {
    var s := Drop.DropItem(h, uid, rest, reply);
    Step(s.hub, Ok(DropReport(s.out.value)))
  }
}

=== FILE: hub_drop.dfy ===
/** `drop` (hub.py:349-390): a user puts down a carried item in the domain
    they are in; the domain names the spot it was put. */
module Drop {
  import opened Values
  import opened HubState
  import opened Text
  import Query
  import Guard
  import Transfer

  /** How a `drop` command ended. `DroppedAt` carries the spot the domain
      answered with. */
  datatype DropOutcome =
    | NothingNamed
    | NotCarried
    | Ambiguous(choices: set<int>)
    | Refused
    | DroppedAt(item: int, spot: Json)

  /** The items the user carries (`gear`). */
  function Gear(u: User): (g: set<int>)
    ensures forall t :: t in g <==> t in u.inventory && u.inventory[t] == Carried
  {
    set t | t in u.inventory && u.inventory[t] == Carried
  }

  /** The unique element of a one-element set. */
  function Only(s: set<int>): (x: int)
    requires |s| == 1
    ensures s == {x}
  {
    assert exists y :: y in s by {
      var y := Member(s);
    }
    var x :| x in s;
    assert |s - {x}| == 0;
    assert s == {x} by {
      assert s - {x} == {};
    }
    x
  }

  /** The carried items whose template is called `text`. */
  function Named(h: Hub, u: User, text: string): (s: set<int>)
    requires u.inventory.Keys <= h.templates.Keys
    ensures forall t :: t in s <==> t in Gear(u) && h.templates[t].name == text
  {
    set t | t in Gear(u) && h.templates[t].name == text
  }

  /** Whether the text names a carried item by its id, computed by parsing:
      a text is a carried id exactly when it parses to one that prints back as it. */
  function ById(u: User, text: string): (r: Option<int>)
    ensures r.Some? <==> exists t :: t in Gear(u) && Show(t) == text
    ensures r.Some? ==> r.value in Gear(u) && Show(r.value) == text
  {
    match ParseInt(text)
    case Some(v) =>
      if v in Gear(u) && Show(v) == text then Some(v)
      else
        assert forall t | Show(t) == text :: t == v by {
          forall t | Show(t) == text ensures t == v { ParseShowRoundTrip(t); }
        }
        None
    case None =>
      assert forall t :: Show(t) != text by {
        forall t ensures Show(t) != text { ParseShowRoundTrip(t); }
      }
      None
  }

  /** The item a `drop` names: the carried item printed as `text`, else
      the only carried item called `text`. */
  ghost predicate Picks(h: Hub, u: User, text: string, t: int)
    requires u.inventory.Keys <= h.templates.Keys
  {
    t in Gear(u) &&
    (Show(t) == text || ((forall k | k in Gear(u) :: Show(k) != text) && Named(h, u, text) == {t}))
  }

  /** `drop` for an authenticated user `uid`. `reply` is the domain's
      answer to `/dropped`, `None` when the request or its JSON failed. */
  function DropItem(h: Hub, uid: int, rest: seq<string>, reply: Option<Json>): (r: Step<DropOutcome>)
    requires Valid(h) && uid in h.users
    ensures r.out.Ok?
    ensures !r.out.value.DroppedAt? ==> r.hub == h
    ensures r.out.value == NothingNamed <==> |rest| == 0
    ensures |rest| > 0 ==>
              var u, text := h.users[uid], Join(rest);
              && (r.out.value == NotCarried <==>
                    (forall t | t in Gear(u) :: Show(t) != text && h.templates[t].name != text))
              && (r.out.value.Ambiguous? ==>
                    r.out.value.choices == Named(h, u, text) && |r.out.value.choices| > 1
                    && forall t | t in Gear(u) :: Show(t) != text)
              && (r.out.value == Refused <==> reply.None? && exists t :: Picks(h, u, text, t))
              && (forall t, spot :: r.out.value == DroppedAt(t, spot) <==> reply == Some(spot) && Picks(h, u, text, t))
    ensures r.out.value.DroppedAt? ==>
              var u, t := h.users[uid], r.out.value.item;
              && r.hub == h.(users := h.users[uid := u.(inventory := u.inventory[t := Dropped(u.at, r.out.value.spot)])])
    ensures Valid(r.hub)
  {
    if |rest| == 0 then Step(h, Ok(NothingNamed))
    else
      var u := h.users[uid];
      assert UserValid(h, u);
      var text := Join(rest);
      var item :=
        match ById(u, text)
        case Some(t) => Some(t)
        case None =>
          var named := Named(h, u, text);
          if |named| == 1 then Some(Only(named)) else None;
      if item.None? then
        var named := Named(h, u, text);
        if |named| == 0 then Step(h, Ok(NotCarried))
        else
          assert exists t :: t in named by {
            var t := Member(named);
          }
          Step(h, Ok(Ambiguous(named)))
      else
        assert Picks(h, u, text, item.value);
        assert forall t | Picks(h, u, text, t) :: t == item.value by {
          if ById(u, text).Some? {
            ShowsOnce(u, text);
          }
        }
        match reply
        case None => Step(h, Ok(Refused))
        case Some(spot) =>
          var h' := h.(users := h.users[uid := u.(inventory := u.inventory[item.value := Dropped(u.at, spot)])]);
          assert Valid(h') by {
            forall w | w in h'.users ensures UserValid(h', h'.users[w]) {
              assert UserValid(h, h.users[w]);
            }
          }
          Step(h', Ok(DroppedAt(item.value, spot)))
  }

  /** At most one item prints as a given text. */
  lemma ShowsOnce(u: User, text: string)
    ensures forall a, b | a in Gear(u) && b in Gear(u) && Show(a) == text && Show(b) == text :: a == b
  {
    forall a, b | a in Gear(u) && b in Gear(u) && Show(a) == text && Show(b) == text ensures a == b {
      ShowInjective(a, b);
    }
  }

  /** A dropped item is where the domain said it put it: the domain's
      query for that spot lists it. */
  lemma DroppedIsFoundThere(h: Hub, uid: int, rest: seq<string>, spot: Json)
    requires Valid(h) && uid in h.users && h.mode == Play
    requires spot != Null && spot != Str("inventory")
    requires DropItem(h, uid, rest, Some(spot)).out.value.DroppedAt?
    ensures var r := DropItem(h, uid, rest, Some(spot));
            var at := h.users[uid].at;
            var q := Query.QueryItems(r.hub, Some(Int(at)), Some(Str(h.domains[at].secret)), Some(Int(uid)), Some(spot), None);
            q.out.Ok? && r.out.value.item in q.out.value
  {
    assert UserValid(h, h.users[uid]);
    var r := DropItem(h, uid, rest, Some(spot));
    var at, t := h.users[uid].at, r.out.value.item;
    assert r.hub.domains == h.domains && r.hub.mode == Play && uid in r.hub.users;
    assert t in r.hub.users[uid].inventory && r.hub.users[uid].inventory[t] == Dropped(at, spot);
    FoundWhereParked(r.hub, uid, at, t, spot);
  }

  /** The query of domain `at` for `spot` lists an item the user has
      parked there. */
  lemma FoundWhereParked(h: Hub, uid: int, at: int, t: int, spot: Json)
    requires Valid(h) && h.mode == Play && uid in h.users && at in h.domains
    requires spot != Null && spot != Str("inventory")
    requires t in h.users[uid].inventory && h.users[uid].inventory[t] == Dropped(at, spot)
    ensures var q := Query.QueryItems(h, Some(Int(at)), Some(Str(h.domains[at].secret)), Some(Int(uid)), Some(spot), None);
            q.out.Ok? && t in q.out.value
  {
    assert Resolve(at, spot) == Dropped(at, spot);
    assert Guard.CheckDomain(h, Some(Int(at)), Some(Str(h.domains[at].secret))) == Ok(at);
    assert Guard.KnownUser(h, Some(Int(uid))) == Some(uid);
  }

  /** Dropping and then having the domain hand the item back restores the
      user's record exactly. */
  lemma DropThenPickUp(h: Hub, uid: int, rest: seq<string>, spot: Json)
    requires Valid(h) && uid in h.users
    requires DropItem(h, uid, rest, Some(spot)).out.value.DroppedAt?
    ensures var r := DropItem(h, uid, rest, Some(spot));
            var u, t := h.users[uid], r.out.value.item;
            t in h.templates &&
            Transfer.Move(r.hub.users[uid], t, h.templates[t], u.at, Str("inventory")) == Ok(u)
  {
    var u := h.users[uid];
    assert UserValid(h, u);
    var r := DropItem(h, uid, rest, Some(spot));
    PickUpUndoesDrop(u, r.out.value.item, h.templates[r.out.value.item], spot);
  }

  /** The record-level round trip: a carried item put down in the current
      domain and taken back by that domain. */
  lemma PickUpUndoesDrop(u: User, t: int, tmpl: Template, spot: Json)
    requires t in Gear(u) && t in u.hashad
    ensures Transfer.Move(u.(inventory := u.inventory[t := Dropped(u.at, spot)]), t, tmpl, u.at, Str("inventory")) == Ok(u)
  {
    var down := u.(inventory := u.inventory[t := Dropped(u.at, spot)]);
    var back := Transfer.Move(down, t, tmpl, u.at, Str("inventory"));
    assert back.Ok?;
    assert back.value.inventory == u.inventory;
    assert back.value.hashad == u.hashad;
  }
}

=== FILE: hub_guard.dfy ===
/** The access guards `checkuid` and `checkdid` (hub.py:108-132). */
module Guard {
  import opened Values
  import opened HubState

  /** `checkuid`: the user id a `/command` request authenticates as. The
      checks run in the order mode (409), missing field (400), unknown
      user (403), wrong secret (403). */
  function CheckUser(h: Hub, user: Option<Json>, secret: Option<Json>): (r: Result<int>)
    ensures r.Ok? <==>
      && h.mode == Play && user.Some? && secret.Some?
      && user.value.Int? && user.value.i in h.users
      && secret.value == Str(h.users[user.value.i].secret)
    ensures r.Ok? ==> r.value == user.value.i
    ensures r.Err? ==>
              r.code == (if h.mode != Play then Conflict
                         else if user.None? || secret.None? then BadRequest
                         else Forbidden)
  {
    if h.mode != Play then Err(Conflict)
    else if user.None? then Err(BadRequest)
    else if secret.None? then Err(BadRequest)
    else if !(user.value.Int? && user.value.i in h.users) then Err(Forbidden)
    else if secret.value != Str(h.users[user.value.i].secret) then Err(Forbidden)
    else Ok(user.value.i)
  }

  /** `checkdid`: the domain id a domain-facing request authenticates as,
      with the same order of checks as `CheckUser`. */
  function CheckDomain(h: Hub, domain: Option<Json>, secret: Option<Json>): (r: Result<int>)
    ensures r.Ok? <==>
      && h.mode == Play && domain.Some? && secret.Some?
      && domain.value.Int? && domain.value.i in h.domains
      && secret.value == Str(h.domains[domain.value.i].secret)
    ensures r.Ok? ==> r.value == domain.value.i
    ensures r.Err? ==>
              r.code == (if h.mode != Play then Conflict
                         else if domain.None? || secret.None? then BadRequest
                         else Forbidden)
  {
    if h.mode != Play then Err(Conflict)
    else if domain.None? then Err(BadRequest)
    else if secret.None? then Err(BadRequest)
    else if !(domain.value.Int? && domain.value.i in h.domains) then Err(Forbidden)
    else if secret.value != Str(h.domains[domain.value.i].secret) then Err(Forbidden)
    else Ok(domain.value.i)
  }

  /** The request's user field checked against `users`: the domain-facing
      endpoints answer 400 when this is `None`. */
  function KnownUser(h: Hub, user: Option<Json>): (r: Option<int>)
    ensures r.Some? <==> IntField(user).Some? && IntField(user).value in h.users
    ensures r.Some? ==> r.value == IntField(user).value
  {
    match IntField(user)
    case Some(u) => if u in h.users then Some(u) else None
    case None => None
  }
}

=== FILE: hub_journey.dfy ===
/** `journey` (hub.py:254-289): a trip through the outside world. Each of
    the three stages the user has reached hands out that stage's prizes of
    the current domain, and a carried outside-world key lets the user
    through to the next stage. */
module Journey {
  import opened Values
  import opened HubState
  import Arrival

  /** What one trip produced: the prizes found, and the stage the user
      stood at before and after. */
  datatype Trip = Trip(found: set<int>, from: int, reached: int)

  /** The message list holds only its opening line exactly when a trip
      found nothing and passed no obstacle. */
  predicate NothingNew(t: Trip)
  {
    t.found == {} && t.reached == t.from
  }

  predicate Carries(u: User, t: int)
  {
    t in u.inventory && u.inventory[t] == Carried
  }

  /** Hand out the prizes of `pool` the user never had. */
  function Award(u: User, pool: set<int>): (r: User)
    ensures r.inventory.Keys == u.inventory.Keys + (pool - u.hashad)
    ensures forall t | t in pool - u.hashad :: r.inventory[t] == Carried
    ensures forall t | t in u.inventory && t !in pool - u.hashad :: r.inventory[t] == u.inventory[t]
    ensures r == u.(inventory := r.inventory, hashad := u.hashad + pool)
  {
    var unseen := pool - u.hashad;
    u.(inventory := u.inventory + map t | t in unseen :: Carried, hashad := u.hashad + pool)
  }

  /** One stage at the user's current stage: award its prizes, then pass
      on if its key is carried. */
  function Stage(u: User, pools: seq<set<int>>, keys: seq<int>): (r: User)
    requires |pools| == 3 && |keys| == 3 && 0 <= u.domstate < 3
    ensures r == Award(u, pools[u.domstate]).(domstate := r.domstate)
    ensures r.domstate == u.domstate + 1 <==> Carries(r, keys[u.domstate])
    ensures r.domstate == u.domstate || r.domstate == u.domstate + 1
  {
    var v := Award(u, pools[u.domstate]);
    if Carries(v, keys[u.domstate]) then v.(domstate := u.domstate + 1) else v
  }

  /** The stages from `u.domstate` on: award the stage's prizes, and move
      on while the stage's key is carried. The second component is the set
      of prizes found. */
  function Travel(u: User, pools: seq<set<int>>, keys: seq<int>): (r: (User, set<int>))
    requires |pools| == 3 && |keys| == 3
    ensures r.0 == u.(inventory := r.0.inventory, hashad := r.0.hashad, domstate := r.0.domstate)
    // the stage only ever goes up, and never past the third key
    ensures r.0.domstate >= u.domstate
    ensures 0 <= u.domstate <= 3 ==> r.0.domstate <= 3
    ensures (u.domstate < 0 || u.domstate >= 3) ==> r == (u, {})
    decreases 3 - u.domstate
  {
    if u.domstate < 0 || u.domstate >= 3 then (u, {})
    else
      var unseen := pools[u.domstate] - u.hashad;
      var v := Stage(u, pools, keys);
      if v.domstate == u.domstate then (v, unseen)
      else
        var (x, more) := Travel(v, pools, keys);
        (x, unseen + more)
  }

  /** The prizes a trip finds are exactly the ones never had of the
      stages it visits; they are carried afterwards, and every other item
      stays where it was. */
  lemma {:induction false} TravelFinds(u: User, pools: seq<set<int>>, keys: seq<int>)
    requires |pools| == 3 && |keys| == 3
    ensures var (v, found) := Travel(u, pools, keys);
      && found !! u.hashad
      && v.hashad == u.hashad + found + (set s, t | u.domstate <= s <= v.domstate && 0 <= s < 3 && t in pools[s] :: t)
      && v.inventory.Keys == u.inventory.Keys + found
      && (forall t | t in found :: v.inventory[t] == Carried)
      && (forall t | t in u.inventory && t !in found :: v.inventory[t] == u.inventory[t])
      && (forall t :: t in found <==>
            t !in u.hashad && exists s :: u.domstate <= s <= v.domstate && 0 <= s < 3 && t in pools[s])
    decreases 3 - u.domstate
  {
    if 0 <= u.domstate < 3 {
      var w := Stage(u, pools, keys);
      if w.domstate != u.domstate {
        TravelFinds(w, pools, keys);
      }
    }
  }

  /** A trip reports nothing new exactly when it left the user's record as
      it was: no prize found, no obstacle passed, nothing else touched. */
  lemma {:induction false} NothingNewIsIdle(u: User, pools: seq<set<int>>, keys: seq<int>)
    requires |pools| == 3 && |keys| == 3
    ensures var (v, found) := Travel(u, pools, keys);
      NothingNew(Trip(found, u.domstate, v.domstate)) <==> v == u
  {
    var (v, found) := Travel(u, pools, keys);
    TravelFinds(u, pools, keys);
    if found == {} && v.domstate == u.domstate {
      assert v.inventory == u.inventory;
      if 0 <= u.domstate < 3 {
        forall t | t in pools[u.domstate] ensures t in u.hashad {
          assert t !in found;
        }
      }
      assert v.hashad == u.hashad;
    }
    if v == u {
      assert found <= v.hashad;
    }
  }

  /** Every stage a trip passes was passed with its key in hand, and the
      trip stops at the first stage whose key is missing. */
  lemma {:induction false} TravelStops(u: User, pools: seq<set<int>>, keys: seq<int>)
    requires |pools| == 3 && |keys| == 3
    ensures var v := Travel(u, pools, keys).0;
      && (forall s | u.domstate <= s < v.domstate :: 0 <= s < 3 && Carries(v, keys[s]))
      && (0 <= u.domstate ==> 0 <= v.domstate < 3 ==> !Carries(v, keys[v.domstate]))
    decreases 3 - u.domstate
  {
    if 0 <= u.domstate < 3 {
      var w := Stage(u, pools, keys);
      if w.domstate != u.domstate {
        TravelStops(w, pools, keys);
        TravelKeepsCarried(w, pools, keys);
      }
    }
  }

  /** A trip never takes a carried item out of the user's hands. */
  lemma {:induction false} TravelKeepsCarried(u: User, pools: seq<set<int>>, keys: seq<int>)
    requires |pools| == 3 && |keys| == 3
    ensures forall t | Carries(u, t) :: Carries(Travel(u, pools, keys).0, t)
    decreases 3 - u.domstate
  {
    if 0 <= u.domstate < 3 {
      var w := Stage(u, pools, keys);
      if w.domstate != u.domstate {
        TravelKeepsCarried(w, pools, keys);
      }
    }
  }

  /** After a stage that did not advance, a new trip finds nothing. */
  lemma StuckTripIsIdle(u: User, pools: seq<set<int>>, keys: seq<int>)
    requires |pools| == 3 && |keys| == 3
    requires 0 <= u.domstate < 3 && pools[u.domstate] <= u.hashad && !Carries(u, keys[u.domstate])
    ensures Travel(u, pools, keys) == (u, {})
  {
    var v := Award(u, pools[u.domstate]);
    assert pools[u.domstate] - u.hashad == {};
    assert v.inventory == u.inventory;
    assert v == u;
  }

  /** A trip is its first stage followed by the trip from there; a
      stage that does not advance ends the trip. */
  lemma StageStep(u: User, pools: seq<set<int>>, keys: seq<int>)
    requires |pools| == 3 && |keys| == 3 && 0 <= u.domstate < 3
    ensures var w := Stage(u, pools, keys);
      && Travel(u, pools, keys) == (Travel(w, pools, keys).0, (pools[u.domstate] - u.hashad) + Travel(w, pools, keys).1)
      && (w.domstate == u.domstate ==> Travel(w, pools, keys) == (w, {}))
  {
    var w := Stage(u, pools, keys);
    if w.domstate == u.domstate {
      assert Travel(u, pools, keys) == (w, pools[u.domstate] - u.hashad);
      StuckTripIsIdle(w, pools, keys);
      assert Travel(w, pools, keys).1 == {};
      assert (pools[u.domstate] - u.hashad) + Travel(w, pools, keys).1 == pools[u.domstate] - u.hashad;
      assert Travel(w, pools, keys).0 == w;
    }
  }

  /** The stage loop as hub.py writes it: stages 0, 1 and 2 in turn, each
      checked against the user's current stage; it computes `Travel`. */
  method Stages(u: User, pools: seq<set<int>>, keys: seq<int>) returns (v: User, found: set<int>)
    requires |pools| == 3 && |keys| == 3
    ensures (v, found) == Travel(u, pools, keys)
  {
    v, found := u, {};
    var ds := 0;
    assert found + Travel(v, pools, keys).1 == Travel(v, pools, keys).1;
    while ds < 3
      invariant 0 <= ds <= 3
      invariant v.domstate >= ds || Travel(v, pools, keys) == (v, {})
      invariant Travel(u, pools, keys) == (Travel(v, pools, keys).0, found + Travel(v, pools, keys).1)
    {
      if v.domstate == ds {
        var unseen := pools[ds] - v.hashad;
        var w := Award(v, pools[ds]);
        if Carries(w, keys[ds]) {
          w := w.(domstate := ds + 1);
        }
        assert w == Stage(v, pools, keys);
        StageStep(v, pools, keys);
        assert found + (unseen + Travel(w, pools, keys).1) == (found + unseen) + Travel(w, pools, keys).1;
        found := found + unseen;
        v := w;
      }
      ds := ds + 1;
    }
    if v.domstate >= 3 {
      assert Travel(v, pools, keys) == (v, {});
    }
  }

  /** The prizes of domain `d` at the three stages, from the hub's index. */
  function Pools(h: Hub, d: int): (p: seq<set<int>>)
    ensures |p| == 3 && forall s | 0 <= s < 3 :: p[s] == PrizesAt(h, d, s)
  {
    [PrizesAt(h, d, 0), PrizesAt(h, d, 1), PrizesAt(h, d, 2)]
  }

  predicate IsDirection(word: string)
  {
    word in {"north", "south", "east", "west"}
  }

  /** `journey` for an authenticated user `uid`: 403 unless the words are
      exactly one cardinal direction; otherwise run the stages and arrive
      back in the same domain. A crash in `arrive` keeps the trip's effect. */
  function TakeJourney(h: Hub, uid: int, rest: seq<string>): (r: Step<Trip>)
    requires Valid(h) && uid in h.users && h.mode == Play
    ensures !(|rest| == 1 && IsDirection(rest[0])) ==> r == Step(h, Err(Forbidden))
    ensures uid in r.hub.users
    ensures |rest| == 1 && IsDirection(rest[0]) ==>
              var u, u' := h.users[uid], r.hub.users[uid];
              var (v, found) := Travel(u, Pools(h, u.at), h.outside[..3]);
              && r.hub.users.Keys == h.users.Keys
              && (forall w | w in h.users && w != uid :: r.hub.users[w] == h.users[w])
              && r.hub.mode == h.mode && r.hub.domains == h.domains && r.hub.templates == h.templates
              && u' == v.(score := u'.score)
              && (forall d :: StoredScore(r.hub, uid, d) == StoredScore(h, uid, d))
              && (r.out.Ok? <==> h.domains[u.at].loot.Some?)
              && (r.out.Ok? ==> r.out.value == Trip(found, u.domstate, v.domstate))
              && (r.out.Err? ==> r.out.code == Crash)
    ensures Valid(r.hub)
  {
    if !(|rest| == 1 && IsDirection(rest[0])) then Step(h, Err(Forbidden))
    else
      var u := h.users[uid];
      var (v, found) := Travel(u, Pools(h, u.at), h.outside[..3]);
      var h1 := Travelled(h, uid);
      match Arrival.Arrive(h1, uid, u.at)
      case None => Step(h1, Err(Crash))
      case Some((h2, _)) => Step(h2, Ok(Trip(found, u.domstate, v.domstate)))
  }

  /** A journey only ever moves users' stages forward. */
  lemma JourneyAdvancesOnly(h: Hub, uid: int, rest: seq<string>)
    requires Valid(h) && uid in h.users && h.mode == Play
    ensures var h' := TakeJourney(h, uid, rest).hub;
            && h'.users.Keys == h.users.Keys
            && (forall w | w in h.users :: h'.users[w].domstate >= h.users[w].domstate)
            && h'.mode == h.mode && h'.templates == h.templates
            && forall w, d :: StoredScore(h', w, d) == StoredScore(h, w, d)
  {
    if |rest| == 1 && IsDirection(rest[0]) {
      var h1 := Travelled(h, uid);
    }
  }

  /** The state after the stages of a trip by `uid`, before `arrive`. */
  function Travelled(h: Hub, uid: int): (h': Hub)
    requires Valid(h) && uid in h.users && h.mode == Play
    ensures h' == h.(users := h.users[uid := Travel(h.users[uid], Pools(h, h.users[uid].at), h.outside[..3]).0])
    ensures h'.users.Keys == h.users.Keys
    ensures forall w | w in h.users :: h'.users[w].domstate >= h.users[w].domstate
    ensures Valid(h')
  {
    var u := h.users[uid];
    assert UserValid(h, u);
    var v := Travel(u, Pools(h, u.at), h.outside[..3]).0;
    var h1 := h.(users := h.users[uid := v]);
    assert Valid(h1) by {
      var (_, found) := Travel(u, Pools(h, u.at), h.outside[..3]);
      TravelFinds(u, Pools(h, u.at), h.outside[..3]);
      forall t | t in found ensures t in h.templates {
        var k :| 0 <= k < 3 && t in Pools(h, u.at)[k];
        assert t in Lookup(h.prizes, u.at, k);
      }
      forall w | w in h1.users ensures UserValid(h1, h1.users[w]) {
        assert UserValid(h, h.users[w]);
      }
    }
    h1
  }

  /** Unlike a one-stage-per-trip reading, a user holding all three keys
      passes every stage in a single journey. */
  lemma AllKeysPassAllStages(u: User, pools: seq<set<int>>, keys: seq<int>)
    requires |pools| == 3 && |keys| == 3 && u.domstate == 0
    requires forall s | 0 <= s < 3 :: Carries(u, keys[s])
    ensures Travel(u, pools, keys).0.domstate == 3
  {
    TravelKeepsCarried(u, pools, keys);
    TravelStops(u, pools, keys);
  }
}

=== FILE: hub_query.dfy ===
/** `/query` (hub.py:515-550): a domain asks which of a user's items are
    at a location, or which of its prizes of a depth the user has never
    had. */
module Query {
  import opened Values
  import opened HubState
  import opened Guard
  import Transfer

  /** The template's depth equals the requested one; a template without a
      depth matches only a JSON null. */
  predicate DepthIs(t: Template, depth: Json)
  {
    match t.depth
    case None => depth == Null
    case Some(k) => depth == Int(k)
  }

  /** `/query`. `location` and `depth` are `None` when the key is absent.
      The answer is the set of item ids (the order of the JSON list follows
      dictionary order and is not modelled). */
  function QueryItems(h: Hub, domain: Option<Json>, secret: Option<Json>, user: Option<Json>,
                      location: Option<Json>, depth: Option<Json>): (r: Step<set<int>>)
    requires Valid(h)
    ensures r.hub == h
    ensures r.out.Ok? ==> CheckDomain(h, domain, secret).Ok? && KnownUser(h, user).Some? && location.Some? != depth.Some?
    ensures CheckDomain(h, domain, secret).Err? ==> r.out == Err(CheckDomain(h, domain, secret).code)
    ensures CheckDomain(h, domain, secret).Ok? && KnownUser(h, user).None? ==> r.out == Err(BadRequest)
    ensures CheckDomain(h, domain, secret).Ok? && KnownUser(h, user).Some? && location.Some? == depth.Some? ==>
              r.out == Err(BadRequest)
    // a location query is answered unless the location is null
    ensures (CheckDomain(h, domain, secret).Ok? && KnownUser(h, user).Some? && location.Some? && depth.None?) ==>
              (if location.value == Null then r.out == Err(BadRequest) else r.out.Ok?)
    // a depth query is answered when the domain holds loot, and crashes when it was never given any
    ensures (CheckDomain(h, domain, secret).Ok? && KnownUser(h, user).Some? && depth.Some? && location.None?) ==>
              (if h.domains[CheckDomain(h, domain, secret).value].loot.None? then r.out == Err(Crash) else r.out.Ok?)
    ensures r.out.Ok? && location.Some? ==>
              var did, inv := CheckDomain(h, domain, secret).value, h.users[KnownUser(h, user).value].inventory;
              && location.value != Null
              && forall t :: t in r.out.value <==> t in inv && inv[t] == Resolve(did, location.value)
    ensures r.out.Ok? && depth.Some? ==>
              var did, inv := CheckDomain(h, domain, secret).value, h.users[KnownUser(h, user).value].inventory;
              && h.domains[did].loot.Some?
              && forall t :: t in r.out.value <==>
                   t in h.domains[did].loot.value && t !in inv && t in h.templates && DepthIs(h.templates[t], depth.value)
  {
    match CheckDomain(h, domain, secret)
    case Err(code) => Step(h, Err(code))
    case Ok(did) =>
      match KnownUser(h, user)
      case None => Step(h, Err(BadRequest))
      case Some(uid) =>
        var inv := h.users[uid].inventory;
        if location.Some? == depth.Some? then Step(h, Err(BadRequest))
        else if location.Some? then
          if location.value == Null then Step(h, Err(BadRequest))
          else
            var where := Resolve(did, location.value);
            Step(h, Ok(set t | t in inv && inv[t] == where))
        else
          match h.domains[did].loot
          case None => Step(h, Err(Crash))   // `domains[did]['loot']` raises KeyError
          case Some(loot) =>
            Step(h, Ok(set t | t in loot && t !in inv && DepthIs(h.templates[t], depth.value)))
  }

  /** An item a domain hands to a user shows up in that domain's
      "inventory" query afterwards. */
  lemma TransferredToInventoryIsCarried(h: Hub, domain: Option<Json>, secret: Option<Json>, user: Option<Json>, item: Option<Json>)
    requires Valid(h)
    requires Transfer.TransferItem(h, domain, secret, user, item, Some(Str("inventory"))).out.Ok?
    ensures var h' := Transfer.TransferItem(h, domain, secret, user, item, Some(Str("inventory"))).hub;
            var q := QueryItems(h', domain, secret, user, Some(Str("inventory")), None);
            q.out.Ok? && IntField(item).value in q.out.value
  {
  }

  /** An item a domain parks at a spot shows up in that domain's query for
      the spot, and no longer in its "inventory" query. */
  lemma TransferredToSpotIsThere(h: Hub, domain: Option<Json>, secret: Option<Json>, user: Option<Json>, item: Option<Json>, spot: Json)
    requires Valid(h) && spot != Str("inventory") && spot != Null
    requires Transfer.TransferItem(h, domain, secret, user, item, Some(spot)).out.Ok?
    ensures var h' := Transfer.TransferItem(h, domain, secret, user, item, Some(spot)).hub;
            var q := QueryItems(h', domain, secret, user, Some(spot), None);
            var c := QueryItems(h', domain, secret, user, Some(Str("inventory")), None);
            && q.out.Ok? && IntField(item).value in q.out.value
            && c.out.Ok? && IntField(item).value !in c.out.value
  {
  }
}

=== FILE: hub_score.dfy ===
/** `/score` (hub.py:433-461): a domain awards a user points for itself. */
module Scores {
  import opened Values
  import opened HubState
  import opened Guard

  const MaxScore: real := 1.005

  /** `/score`. `score` is `None` when the field is missing or `float()`
      cannot read it. A score is stored only when it lies in [0, 1.005]
      and is not below the score already stored (0 when there is none). */
  function AwardScore(h: Hub, domain: Option<Json>, secret: Option<Json>, user: Option<Json>,
                      score: Option<real>): (r: Step<()>)
    ensures r.out.Err? ==> r.hub == h
    ensures r.out.Ok? ==>
              && CheckDomain(h, domain, secret).Ok? && KnownUser(h, user).Some? && score.Some?
              && var did, uid, s := CheckDomain(h, domain, secret).value, KnownUser(h, user).value, score.value;
                 && 0.0 <= s <= MaxScore
                 && s >= StoredScore(h, uid, did)
                 && r.hub == h.(users := h.users[uid := h.users[uid].(score := h.users[uid].score[did := s])])
    ensures CheckDomain(h, domain, secret).Ok? && KnownUser(h, user).Some? && score.Some? ==>
              var did, uid, s := CheckDomain(h, domain, secret).value, KnownUser(h, user).value, score.value;
              r.out == (if s < 0.0 || s > MaxScore then Err(BadRequest)
                        else if s < StoredScore(h, uid, did) then Err(Conflict)
                        else Ok(()))
    // the ratchet: no stored score ever goes down
    ensures forall u, d :: StoredScore(r.hub, u, d) >= StoredScore(h, u, d)
    ensures r.hub.users.Keys == h.users.Keys
    ensures Valid(h) ==> Valid(r.hub)
  {
    match CheckDomain(h, domain, secret)
    case Err(code) => Step(h, Err(code))
    case Ok(did) =>
      match KnownUser(h, user)
      case None => Step(h, Err(BadRequest))
      case Some(uid) =>
        match score
        case None => Step(h, Err(BadRequest))
        case Some(s) =>
          if s < 0.0 || s > MaxScore then Step(h, Err(BadRequest))
          else if s < StoredScore(h, uid, did) then Step(h, Err(Conflict))
          else
            var me := h.users[uid];
            var h' := h.(users := h.users[uid := me.(score := me.score[did := s])]);
            assert Valid(h) ==> Valid(h') by {
              if Valid(h) {
                forall v | v in h'.users ensures UserValid(h', h'.users[v]) {
                  assert UserValid(h, h.users[v]);
                }
              }
            }
            Step(h', Ok(()))
  }
}

=== FILE: hub_setup.dfy ===
/** The setup lifecycle: domain registration (`register_domain`,
    hub.py:393-431), the `/mode` switch (`set_mode`, hub.py:149-173), and
    the world generation the switch to play runs: the prize index of
    `make_map` (hub.py:85-88) and `assign_loot` (hub.py:92-105). */
module Setup {
  import opened Values
  import opened HubState

  /** One entry of the `items` list of a registration: its name when it
      has one, and its depth when that is an integer. */
  datatype ItemSpec = ItemSpec(name: Option<string>, depth: Option<int>)

  /** The answer to a successful registration. */
  datatype Registered = Registered(id: int, items: seq<int>, secret: string)

  /** The template a registered item becomes: unnamed items are called
      "thing", negative depths are raised to 0. */
  function TemplateOf(spec: ItemSpec, did: int): Template
  {
    Template(
      spec.name.GetOr("thing"),
      did,
      {},
      match spec.depth
      case Some(k) => Some(if k < 0 then 0 else k)
      case None => None)
  }

  /** The template loop of `register_domain`: each item gets the id
      `len(templates) + t0` at the moment it is stored. */
  function AddTemplates(ts: map<int, Template>, items: seq<ItemSpec>, did: int, t0: int): (r: (map<int, Template>, seq<int>))
    ensures |r.1| == |items|
    ensures ts.Keys <= r.0.Keys
    ensures forall t | t in ts && ts[t].home == did :: r.0[t].home == did
    ensures forall i | 0 <= i < |r.1| :: r.1[i] in r.0 && r.0[r.1[i]].home == did
    decreases |items|
  {
    if |items| == 0 then (ts, [])
    else
      var tid := |ts| + t0;
      var rest := AddTemplates(ts[tid := TemplateOf(items[0], did)], items[1..], did, t0);
      (rest.0, [tid] + rest.1)
  }

  /** The ids `start, start + 1, ..., start + n - 1`. */
  function Range(start: int, n: nat): (s: seq<int>)
    ensures |s| == n && forall i | 0 <= i < n :: s[i] == start + i
  {
    seq(n, i requires 0 <= i < n => start + i)
  }

  /** When none of the ids `len(templates) + t0 + i` is taken, registration
      stores item `i` under exactly that id and leaves every earlier
      template alone. */
  lemma {:induction false} FreshRegistration(ts: map<int, Template>, items: seq<ItemSpec>, did: int, t0: int)
    requires forall k | k in ts :: !(|ts| + t0 <= k < |ts| + t0 + |items|)
    ensures var r := AddTemplates(ts, items, did, t0);
      && (forall i | 0 <= i < |items| :: r.1[i] == |ts| + t0 + i && r.0[r.1[i]] == TemplateOf(items[i], did))
      && (forall t | t in ts :: r.0[t] == ts[t])
    decreases |items|
  {
    if |items| > 0 {
      var ts' := ts[|ts| + t0 := TemplateOf(items[0], did)];
      FreshTail(ts, items, did, t0);
      FreshRegistration(ts', items[1..], did, t0);
      FreshStep(ts, items, did, t0);
    }
  }

  /** The first registered item takes a fresh id, so the next id is one
      higher and still fresh. */
  lemma FreshTail(ts: map<int, Template>, items: seq<ItemSpec>, did: int, t0: int)
    requires |items| > 0
    requires forall k | k in ts :: !(|ts| + t0 <= k < |ts| + t0 + |items|)
    ensures var ts' := ts[|ts| + t0 := TemplateOf(items[0], did)];
      && |ts'| == |ts| + 1
      && forall k | k in ts' :: !(|ts'| + t0 <= k < |ts'| + t0 + |items[1..]|)
  {
    var tid := |ts| + t0;
    var ts' := ts[tid := TemplateOf(items[0], did)];
    assert ts'.Keys == ts.Keys + {tid};
    assert tid !in ts;
    forall k | k in ts'
      ensures !(|ts'| + t0 <= k < |ts'| + t0 + |items[1..]|)
    {
      if k != tid { assert k in ts; }
    }
  }

  /** One step of `FreshRegistration`: the first item's id followed by the
      tail's ids, and the tail leaves the first item's template alone. */
  lemma FreshStep(ts: map<int, Template>, items: seq<ItemSpec>, did: int, t0: int)
    requires |items| > 0
    requires forall k | k in ts :: !(|ts| + t0 <= k < |ts| + t0 + |items|)
    requires var ts' := ts[|ts| + t0 := TemplateOf(items[0], did)];
      var r := AddTemplates(ts', items[1..], did, t0);
      && |ts'| == |ts| + 1
      && (forall i | 0 <= i < |items| - 1 :: r.1[i] == |ts| + 1 + t0 + i && r.0[r.1[i]] == TemplateOf(items[1..][i], did))
      && (forall t | t in ts' :: r.0[t] == ts'[t])
    ensures var r := AddTemplates(ts, items, did, t0);
      && (forall i | 0 <= i < |items| :: r.1[i] == |ts| + t0 + i && r.0[r.1[i]] == TemplateOf(items[i], did))
      && (forall t | t in ts :: r.0[t] == ts[t])
  {
    var tid := |ts| + t0;
    var ts' := ts[tid := TemplateOf(items[0], did)];
    var r := AddTemplates(ts, items, did, t0);
    var r' := AddTemplates(ts', items[1..], did, t0);
    assert r.0 == r'.0 && r.1 == [tid] + r'.1;
    forall i | 0 <= i < |items|
      ensures r.1[i] == |ts| + t0 + i && r.0[r.1[i]] == TemplateOf(items[i], did)
    {
      if i > 0 {
        assert r.1[i] == r'.1[i - 1];
        assert items[1..][i - 1] == items[i];
      } else {
        assert tid in ts';
      }
    }
    forall t | t in ts
      ensures r.0[t] == ts[t]
    {
      assert t in ts' && ts'[t] == ts[t];
    }
  }

  /** The request field is present and holds a string. */
  predicate IsStr(field: Option<Json>)
  {
    field.Some? && field.value.Str?
  }

  /** `register_domain`. The domain id `did` and `t0` are the two
      `randrange(1000)` draws and `secret` the `make_secret()` draw; `items`
      is `None` when the field is missing, not a list, or holds a
      non-object. */
  function Register(h: Hub, name: Option<Json>, description: Option<Json>, url: Option<Json>,
                    items: Option<seq<ItemSpec>>, did: int, secret: string, t0: int): (r: Step<Registered>)
    ensures r.out.Err? ==> r.hub == h
    ensures r.out.Ok? ==> h.mode == Setup && url.Some? && url.value.Str?
    ensures r.out.Ok? ==> forall d | d in h.domains :: h.domains[d].url != url.value.s
    ensures r.out.Ok? ==> |h.domains| <= 1
    ensures r.out.Ok? ==>
      && items.Some?
      && r.out.value.id == did && r.out.value.secret == secret
      && |r.out.value.items| == |items.value|
      && r.hub.domains == h.domains[did := Domain(url.value.s, secret, None)]
      && h.templates.Keys <= r.hub.templates.Keys
      && (forall t | t in r.out.value.items :: t in r.hub.templates && r.hub.templates[t].home == did)
      && r.hub.mode == h.mode && r.hub.users == h.users
    // what is stored is exactly the request's items as `AddTemplates` numbers
    // them, and a new domain goes to the end of the registration order
    ensures r.out.Ok? ==>
      var added := AddTemplates(h.templates, items.value, did, t0);
      && r.hub.templates == added.0 && r.out.value.items == added.1
      && r.hub.order == (if did in h.domains then h.order else h.order + [did])
    ensures h.mode != Setup ==> r.out == Err(Conflict)
    // in setup, a missing or malformed field is a 400 whatever else holds
    ensures h.mode == Setup ==>
              (!(IsStr(name) && IsStr(description) && IsStr(url) && items.Some?) <==> r.out == Err(BadRequest))
    // and a well-formed request is refused with 409 for a repeated URL or a third domain
    ensures h.mode == Setup && IsStr(name) && IsStr(description) && IsStr(url) && items.Some? ==>
              ((exists d | d in h.domains :: h.domains[d].url == url.value.s) || |h.domains| > 1 <==> r.out == Err(Conflict))
    ensures h.mode == Setup && name.Some? && name.value.Str? && description.Some? && description.value.Str?
            && url.Some? && url.value.Str? && items.Some?
            && (forall d | d in h.domains :: h.domains[d].url != url.value.s)
            ==> (r.out.Ok? <==> |h.domains| <= 1)
    ensures Valid(h) ==> Valid(r.hub)
  {
    if h.mode != Setup then Step(h, Err(Conflict))
    else if !(name.Some? && name.value.Str?) then Step(h, Err(BadRequest))
    else if !(description.Some? && description.value.Str?) then Step(h, Err(BadRequest))
    else if !(url.Some? && url.value.Str?) then Step(h, Err(BadRequest))
    else if items.None? then Step(h, Err(BadRequest))
    else if exists d | d in h.domains :: h.domains[d].url == url.value.s then Step(h, Err(Conflict))
    else if |h.domains| > 1 then Step(h, Err(Conflict))
    else
      var added := AddTemplates(h.templates, items.value, did, t0);
      var h' := h.(
        domains := h.domains[did := Domain(url.value.s, secret, None)],
        order := if did in h.domains then h.order else h.order + [did],
        templates := added.0);
      assert Valid(h) ==> Valid(h') by {
        if Valid(h) {
          forall d | d in h'.domains && h'.domains[d].loot.Some?
            ensures forall t | t in h'.domains[d].loot.value :: t in h'.templates
          {
            assert d != did && d in h.domains;
          }
          forall i, j | 0 <= i < j < |h'.order|
            ensures h'.order[i] != h'.order[j]
          {
            if did !in h.domains && j == |h.order| {
              assert h'.order[i] == h.order[i] && h.order[i] in h.domains;
            }
          }
          forall u | u in h'.users ensures UserValid(h', h'.users[u]) {
            assert UserValid(h, h.users[u]);
          }
        }
      }
      Step(h', Ok(Registered(did, added.1, secret)))
  }

  /** The loot id search: the least id at or above `n` that is not taken. */
  function FreeFrom(keys: set<int>, n: int): (r: int)
    ensures r >= n && r !in keys
    ensures forall k | n <= k < r :: k in keys
    decreases |set k | k in keys && k >= n|
  {
    if n !in keys then n
    else
      var above := set k | k in keys && k >= n;
      var above' := set k | k in keys && k >= n + 1;
      assert above == above' + {n} && n !in above';
      FreeFrom(keys, n + 1)
  }

  /** The `domains_prizes` index built by `make_map` from the registered
      templates: each (home, depth) pair maps to the templates with that
      home and that depth. */
  function PrizeIndex(ts: map<int, Template>): (ix: map<(int, int), set<int>>)
    ensures forall d, k, t :: t in Lookup(ix, d, k) <==> t in ts && ts[t].home == d && ts[t].depth == Some(k)
  {
    var keys := set t | t in ts && ts[t].depth.Some? :: (ts[t].home, ts[t].depth.value);
    var ix := map p | p in keys :: set t | t in ts && ts[t].home == p.0 && ts[t].depth == Some(p.1);
    assert forall d, k, t | t in ts && ts[t].home == d && ts[t].depth == Some(k) :: (d, k) in keys;
    ix
  }

  /** The four outside-world templates of `make_map`, hosted by `host`:
      names in shuffled order, depths 0, 1, 2 and a random one for the
      fourth. */
  function OutsideItems(names: seq<string>, lastDepth: int, host: int): (s: seq<Template>)
    requires |names| == 4
    ensures |s| == 4
    ensures forall i | 0 <= i < 4 :: s[i].name == names[i] && s[i].home == -1 && s[i].hosts == {host}
    ensures forall i | 0 <= i < 3 :: s[i].depth == Some(i)
    ensures s[3].depth == Some(lastDepth)
  {
    seq(4, i requires 0 <= i < 4 => Template(names[i], -1, {host}, Some(if i < 3 then i else lastDepth)))
  }

  /** The world generation run at the switch to play: the prize index is
      taken from the registered templates, then `assign_loot` stores the
      outside items from the first free id upward, as the loot of the first
      registered domain. Only the first of the four ids is probed, so the
      other three may overwrite registered templates. */
  function StartPlay(h: Hub, names: seq<string>, lastDepth: int, lootStart: int): (h': Hub)
    requires |names| == 4 && |h.order| > 0
    requires h.order[0] in h.domains
    ensures h'.mode == Play && h'.users == h.users && h'.order == h.order
    ensures h'.domains.Keys == h.domains.Keys
    ensures h.templates.Keys <= h'.templates.Keys
    ensures h'.prizes == PrizeIndex(h.templates)
    ensures |h'.outside| == 4 && h'.outside[0] >= lootStart && h'.outside[0] !in h.templates
    ensures forall i | 0 < i < 4 :: h'.outside[i] == h'.outside[0] + i
    ensures h'.domains[h.order[0]].loot == Some(h'.outside)
    ensures forall d | d in h.domains && d != h.order[0] :: h'.domains[d] == h.domains[d]
    // the loot starts at the first id at or above the draw that is free
    ensures forall k | lootStart <= k < h'.outside[0] :: k in h.templates
    ensures forall i | 0 <= i < 4 :: h'.outside[i] in h'.templates && h'.templates[h'.outside[i]].hosts == {h.order[0]}
    // the four outside templates: shuffled names, no home, depths 0, 1, 2 and the drawn one
    ensures forall i | 0 <= i < 4 :: h'.templates[h'.outside[i]] == OutsideItems(names, lastDepth, h.order[0])[i]
    ensures forall i | 0 <= i < 4 ::
              && h'.templates[h'.outside[i]].name == names[i] && h'.templates[h'.outside[i]].home == -1
              && h'.templates[h'.outside[i]].depth == Some(if i < 3 then i else lastDepth)
    // every registered template the loot does not overwrite is kept
    ensures forall t | t in h.templates && t !in h'.outside :: h'.templates[t] == h.templates[t]
  {
    var host := h.order[0];
    var ids := LootIds(h.templates.Keys, lootStart);
    h.(mode := Play,
       prizes := PrizeIndex(h.templates),
       templates := WithOutside(h.templates, ids, OutsideItems(names, lastDepth, host)),
       domains := h.domains[host := h.domains[host].(loot := Some(ids))],
       outside := ids)
  }

  /** The four ids `assign_loot` uses: the first free id at or above
      `lootStart` and the three after it. */
  function LootIds(taken: set<int>, lootStart: int): (ids: seq<int>)
    ensures |ids| == 4 && ids[0] >= lootStart && ids[0] !in taken
    ensures forall k | lootStart <= k < ids[0] :: k in taken
    ensures forall i | 0 <= i < 4 :: ids[i] == ids[0] + i
  {
    Range(FreeFrom(taken, lootStart), 4)
  }

  /** The templates with the four outside items stored under four
      consecutive ids (overwriting whatever was there). */
  function WithOutside(ts: map<int, Template>, ids: seq<int>, items: seq<Template>): (ts': map<int, Template>)
    requires |ids| == 4 && |items| == 4
    requires forall i | 0 <= i < 4 :: ids[i] == ids[0] + i
    ensures ts.Keys <= ts'.Keys
    ensures forall i | 0 <= i < 4 :: ids[i] in ts' && ts'[ids[i]] == items[i]
    ensures forall t | t in ts && t !in ids :: ts'[t] == ts[t]
  {
    var placed := map i | 0 <= i < 4 :: ids[i] := items[i];
    assert forall i | 0 <= i < 4 :: ids[i] in placed && placed[ids[i]] == items[i] by {
      forall i | 0 <= i < 4 ensures ids[i] in placed && placed[ids[i]] == items[i] {
        assert forall j | 0 <= j < 4 && ids[j] == ids[i] :: j == i;
      }
    }
    ts + placed
  }

  /** The switch to play keeps the state valid. */
  lemma StartPlayValid(h: Hub, names: seq<string>, lastDepth: int, lootStart: int)
    requires Valid(h) && |names| == 4 && |h.order| > 0 && h.order[0] in h.domains
    ensures Valid(StartPlay(h, names, lastDepth, lootStart))
  {
    var h' := StartPlay(h, names, lastDepth, lootStart);
    forall u | u in h'.users ensures UserValid(h', h'.users[u]) {
      assert UserValid(h, h.users[u]);
    }
    forall d | d in h'.domains && h'.domains[d].loot.Some?
      ensures forall t | t in h'.domains[d].loot.value :: t in h'.templates
    {
      if d != h.order[0] {
        assert h.domains[d] == h'.domains[d];
      }
    }
    assert |h'.domains| > 0 by {
      assert h.order[0] in h'.domains;
    }
  }

  /** `set_mode`. `names`, `lastDepth` and `lootStart` are the random draws
      of world generation (the shuffled item names, the fourth item's
      depth, the first `randrange(1000)` loot id). The answer is the mode in
      force afterwards. */
  function SetMode(h: Hub, request: string, names: seq<string>, lastDepth: int, lootStart: int): (r: Step<Mode>)
    requires Valid(h) && |names| == 4
    ensures r.out.Err? ==> r.hub == h
    ensures request == ModeName(h.mode) ==> r == Step(h, Ok(h.mode))
    ensures h.mode == Locked && request != "locked" ==> r.out == Err(Conflict)
    ensures h.mode != Setup && request == "setup" ==> r.out.Err? && r.out.code in {Conflict, Forbidden}
    ensures r.hub.mode == Setup ==> h.mode == Setup
    ensures h.mode == Play ==> r.hub == h
    ensures r.hub.users == h.users
    ensures h.mode == Setup && request == "play" ==> (r.out.Ok? <==> |h.domains| > 0)
    // the switch to play builds the prize index and assigns the loot
    ensures h.mode == Setup && request == "play" && r.out.Ok? ==>
              && |h.order| > 0 && h.order[0] in h.domains
              && r.hub == StartPlay(h, names, lastDepth, lootStart)
    ensures r.hub.mode != h.mode ==> h.mode == Setup && r.hub.mode == Play && request == "play" && |h.domains| > 0
    ensures request !in {"setup", "locked", "play"} && h.mode != Locked ==> r.out == Err(BadRequest)
    ensures Valid(r.hub)
  {
    if request == ModeName(h.mode) then Step(h, Ok(h.mode))
    else if h.mode == Locked then Step(h, Err(Conflict))
    else if request == "setup" then Step(h, Err(Forbidden))
    else if request == "play" then
      if |h.domains| == 0 then Step(h, Err(Conflict))
      else
        assert h.order[0] in h.domains by {
          var d := SomeKey(h.domains);
          assert d in h.order;
        }
        var h' := StartPlay(h, names, lastDepth, lootStart);
        StartPlayValid(h, names, lastDepth, lootStart);
        Step(h', Ok(Play))
    else Step(h, Err(BadRequest))
  }
}

=== FILE: hub_state.dfy ===
/** The hub's authoritative world state: the global `domains`, `templates`,
    `users` and `mode` of hub.py, plus the two indexes computed when play
    starts (the prize index and the ids of the outside-world items). */
module HubState {
  import opened Values

  datatype Mode = Setup | Locked | Play

  /** The text a client posts to `/mode` to name each mode. */
  function ModeName(m: Mode): string
  {
    match m
    case Setup => "setup"
    case Locked => "locked"
    case Play => "play"
  }

  /** Where a user's copy of an item is: carried ("inventory"), or dropped
      at a spot token only the named domain understands. */
  datatype Location = Carried | Dropped(domain: int, spot: Json)

  /** The location a domain means by a raw `to` (or `location`) value: the
      string "inventory" means carried, anything else is a spot of that
      domain. */
  function Resolve(did: int, v: Json): (loc: Location)
    ensures loc == Carried <==> v == Str("inventory")
    ensures loc.Dropped? ==> loc.domain == did && loc.spot == v
  {
    if v == Str("inventory") then Carried else Dropped(did, v)
  }

  /** An item template. Outside-world items have home -1 and list the
      hosting domain in `hosts`; registered items have no hosts. */
  datatype Template = Template(name: string, home: int, hosts: set<int>, depth: Option<int>)

  /** A registered domain. `loot` is absent until the switch to play gives
      the first registered domain its list; no other domain ever gets one. */
  datatype Domain = Domain(url: string, secret: string, loot: Option<seq<int>>)

  /** A logged-in user: `at` is the current domain (`in` in hub.py). */
  datatype User = User(
    secret: string,
    at: int,
    inventory: map<int, Location>,
    domstate: int,
    score: map<int, real>,
    hashad: set<int>)

  datatype Hub = Hub(
    mode: Mode,
    domains: map<int, Domain>,
    /** domain ids in registration order (the iteration order of `domains`) */
    order: seq<int>,
    templates: map<int, Template>,
    users: map<int, User>,
    /** `domains_prizes`: (home, depth) to the templates with that home and depth */
    prizes: map<(int, int), set<int>>,
    /** the ids given to the outside-world items, in the order of `others_items` */
    outside: seq<int>)

  /** A transition's new state and the answer to the request. */
  datatype Step<+T> = Step(hub: Hub, out: Result<T>)

  /** The state the hub process starts in. */
  function Init(): (h: Hub)
    ensures h.mode == Setup && h.users == map[] && h.domains == map[]
  {
    Hub(Setup, map[], [], map[], map[], map[], [])
  }

  /** The entry of a prize index keyed by (home, depth), empty when absent. */
  function Lookup(index: map<(int, int), set<int>>, d: int, depth: int): set<int>
  {
    if (d, depth) in index then index[(d, depth)] else {}
  }

  /** The prizes the hub's index lists for domain `d` at `depth`. */
  function PrizesAt(h: Hub, d: int, depth: int): set<int>
  {
    Lookup(h.prizes, d, depth)
  }

  /** The score user `u` holds from domain `d`: 0 when none was awarded or
      the user does not exist. */
  function StoredScore(h: Hub, u: int, d: int): real
  {
    if u in h.users && d in h.users[u].score then h.users[u].score[d] else 0.0
  }

  ghost predicate UserValid(h: Hub, u: User)
  {
    && u.at in h.domains
    && u.inventory.Keys <= h.templates.Keys
    // an item only becomes carried by being handed out, which records it
    && (forall t | t in u.inventory && u.inventory[t] == Carried :: t in u.hashad)
    && 0 <= u.domstate <= 3
    && (forall d | d in u.score :: 0.0 <= u.score[d] <= 1.005)
  }

  /** The keys of `m` are exactly 0, 1, ..., |m| - 1. */
  ghost predicate Dense<V>(m: map<int, V>)
  {
    forall v :: v in m <==> 0 <= v < |m|
  }

  /** What every reachable hub state satisfies. */
  ghost predicate Valid(h: Hub)
  {
    // `login` names a user `len(users)`, so user ids are 0, 1, 2, ...
    && Dense(h.users)
    && (forall d :: d in h.order <==> d in h.domains)
    && (forall i, j :: 0 <= i < j < |h.order| ==> h.order[i] != h.order[j])
    && (forall d | d in h.domains && h.domains[d].loot.Some? :: (forall t | t in h.domains[d].loot.value :: t in h.templates))
    && (forall d, k, t | t in Lookup(h.prizes, d, k) :: t in h.templates)
    && (h.mode == Play ==> |h.domains| > 0 && |h.outside| == 4)
    && (forall u | u in h.users :: UserValid(h, h.users[u]))
  }

  /** Replacing a user by a valid record keeps the state valid. */
  lemma ReplaceUser(h: Hub, uid: int, u: User)
    requires Valid(h) && uid in h.users && UserValid(h, u)
    ensures Valid(h.(users := h.users[uid := u]))
  {
    var h' := h.(users := h.users[uid := u]);
    assert h'.users.Keys == h.users.Keys;
    forall v | v in h'.users ensures UserValid(h', h'.users[v]) {
      if v != uid { assert UserValid(h, h.users[v]); }
    }
  }

  /** Adding a valid record under the next id keeps the state valid. */
  lemma AppendUser(h: Hub, u: User)
    requires Valid(h) && UserValid(h, u)
    ensures |h.users| !in h.users
    ensures Valid(h.(users := h.users[|h.users| := u]))
  {
    var n := |h.users|;
    var h' := h.(users := h.users[n := u]);
    DenseAppend(h.users, u);
    forall v | v in h'.users ensures UserValid(h', h'.users[v]) {
      if v != n { assert UserValid(h, h.users[v]); }
    }
  }

  /** Ids 0 .. n-1 plus the next id n are ids 0 .. n. */
  lemma DenseAppend<V>(m: map<int, V>, x: V)
    requires Dense(m)
    ensures |m| !in m
    ensures Dense(m[|m| := x])
  {
    var n := |m|;
    assert n !in m;
    var m' := m[n := x];
    assert m'.Keys == m.Keys + {n};
    var k := |m'|;
    assert k == n + 1;
    forall v ensures v in m' <==> 0 <= v < k {
      assert v in m' <==> v in m || v == n;
    }
  }
}

=== FILE: hub_system.dfy ===
/** The hub as a whole: every request it serves, applied in sequence.
    The ratchets below are what the endpoints together guarantee: once
    play starts the world is fixed, users are never forgotten, and
    neither a stored score nor a user's stage ever goes down. */
module HubSystem {
  import opened Values
  import opened HubState
  import Setup
  import Transfer
  import Scores
  import Query
  import Arrival
  import Command

  /** One request, with the random draws it consumes. */
  datatype Op =
    | RegisterOp(name: Option<Json>, description: Option<Json>, url: Option<Json>,
                 items: Option<seq<Setup.ItemSpec>>, did: int, newSecret: string, t0: int)
    | ModeOp(request: string, names: (string, string, string, string), lastDepth: int, lootStart: int)
    | LoginOp(userSecret: string, pick: nat)
    | CommandOp(user: Option<Json>, secret: Option<Json>, command: Command.CommandField, reply: Option<Json>)
    | TransferOp(domain: Option<Json>, secret: Option<Json>, user: Option<Json>, item: Option<Json>, to: Option<Json>)
    | ScoreOp(domain: Option<Json>, secret: Option<Json>, user: Option<Json>, score: Option<real>)
    | QueryOp(domain: Option<Json>, secret: Option<Json>, user: Option<Json>, location: Option<Json>, depth: Option<Json>)

  /** What every request guarantees about the state it leaves behind. */
  ghost predicate Advances(h: Hub, h': Hub)
  {
    && Valid(h')
    && h.users.Keys <= h'.users.Keys
    && (forall u, d :: StoredScore(h', u, d) >= StoredScore(h, u, d))
    && (forall u | u in h.users :: h'.users[u].domstate >= h.users[u].domstate)
    && (h.mode == Play ==> h'.mode == Play && h'.templates == h.templates && h'.prizes == h.prizes && h'.domains == h.domains)
    && (h.mode != Setup ==> h'.domains.Keys == h.domains.Keys)
    && (h'.mode == Setup ==> h.mode == Setup)
  }

  lemma AdvancesTrans(h: Hub, h': Hub, h'': Hub)
    requires Advances(h, h') && Advances(h', h'')
    ensures Advances(h, h'')
  {
  }

  lemma RegisterAdvances(h: Hub, op: Op)
    requires Valid(h) && op.RegisterOp?
    ensures Advances(h, Setup.Register(h, op.name, op.description, op.url, op.items, op.did, op.newSecret, op.t0).hub)
  {
  }

  lemma ModeAdvances(h: Hub, op: Op)
    requires Valid(h) && op.ModeOp?
    ensures Advances(h, Setup.SetMode(h, op.request, [op.names.0, op.names.1, op.names.2, op.names.3], op.lastDepth, op.lootStart).hub)
  {
  }

  lemma LoginAdvances(h: Hub, op: Op)
    requires Valid(h) && op.LoginOp?
    ensures Advances(h, Arrival.Login(h, op.userSecret, op.pick).hub)
  {
  }

  lemma CommandAdvances(h: Hub, op: Op)
    requires Valid(h) && op.CommandOp?
    ensures Advances(h, Command.HandleCommand(h, op.user, op.secret, op.command, op.reply).hub)
  {
  }

  lemma TransferAdvances(h: Hub, op: Op)
    requires Valid(h) && op.TransferOp?
    ensures Advances(h, Transfer.TransferItem(h, op.domain, op.secret, op.user, op.item, op.to).hub)
  {
  }

  lemma ScoreAdvances(h: Hub, op: Op)
    requires Valid(h) && op.ScoreOp?
    ensures Advances(h, Scores.AwardScore(h, op.domain, op.secret, op.user, op.score).hub)
  {
  }

  /** The state after serving one request. */
  function Apply(h: Hub, op: Op): (h': Hub)
    requires Valid(h)
    ensures Advances(h, h')
  {
    match op
    case RegisterOp(name, description, url, items, did, secret, t0) =>
      RegisterAdvances(h, op);
      Setup.Register(h, name, description, url, items, did, secret, t0).hub
    case ModeOp(request, names, lastDepth, lootStart) =>
      ModeAdvances(h, op);
      Setup.SetMode(h, request, [names.0, names.1, names.2, names.3], lastDepth, lootStart).hub
    case LoginOp(secret, pick) =>
      LoginAdvances(h, op);
      Arrival.Login(h, secret, pick).hub
    case CommandOp(user, secret, command, reply) =>
      CommandAdvances(h, op);
      Command.HandleCommand(h, user, secret, command, reply).hub
    case TransferOp(domain, secret, user, item, to) =>
      TransferAdvances(h, op);
      Transfer.TransferItem(h, domain, secret, user, item, to).hub
    case ScoreOp(domain, secret, user, score) =>
      ScoreAdvances(h, op);
      Scores.AwardScore(h, domain, secret, user, score).hub
    case QueryOp(domain, secret, user, location, depth) =>
      Query.QueryItems(h, domain, secret, user, location, depth).hub
  }

  /** The state after serving `ops` in order. */
  function Run(h: Hub, ops: seq<Op>): (h': Hub)
    requires Valid(h)
    ensures Valid(h')
    decreases |ops|
  {
    if |ops| == 0 then h else Run(Apply(h, ops[0]), ops[1..])
  }

  lemma InitValid()
    ensures Valid(Init())
  {
  }

  /** Every state the hub can reach from its start satisfies `Valid`. */
  lemma ReachableValid(ops: seq<Op>)
    ensures Valid(Init()) && Valid(Run(Init(), ops))
  {
    InitValid();
  }

  /** A run as a whole keeps every per-request guarantee. */
  lemma {:induction false} RunAdvances(h: Hub, ops: seq<Op>)
    requires Valid(h)
    ensures Advances(h, Run(h, ops))
    decreases |ops|
  {
    if |ops| > 0 {
      var h1 := Apply(h, ops[0]);
      RunAdvances(h1, ops[1..]);
      AdvancesTrans(h, h1, Run(h1, ops[1..]));
    }
  }

  /** No stored score ever goes down, over any run. */
  lemma ScoresNeverDrop(h: Hub, ops: seq<Op>)
    requires Valid(h)
    ensures forall u, d :: StoredScore(Run(h, ops), u, d) >= StoredScore(h, u, d)
  {
    RunAdvances(h, ops);
  }

  /** Users are never forgotten and their stage never goes back, over any run. */
  lemma StagesNeverDrop(h: Hub, ops: seq<Op>)
    requires Valid(h)
    ensures h.users.Keys <= Run(h, ops).users.Keys
    ensures forall u | u in h.users :: Run(h, ops).users[u].domstate >= h.users[u].domstate
  {
    RunAdvances(h, ops);
  }

  /** Once in play, the hub stays in play with the same item world. */
  lemma PlayIsFinal(h: Hub, ops: seq<Op>)
    requires Valid(h) && h.mode == Play
    ensures Run(h, ops).mode == Play
    ensures Run(h, ops).templates == h.templates && Run(h, ops).prizes == h.prizes
    ensures Run(h, ops).domains == h.domains
  {
    RunAdvances(h, ops);
  }

  /** The hub never returns to setup once it has left it. */
  lemma SetupIsNeverReentered(h: Hub, ops: seq<Op>)
    requires Valid(h) && h.mode != Setup
    ensures Run(h, ops).mode != Setup
  {
    RunAdvances(h, ops);
  }
}

=== FILE: hub_transfer.dfy ===
/** The transfer engine behind `/transfer` (hub.py:463-512): the only
    request through which a domain moves an item into or out of a user's
    hands. */
module Transfer {
  import opened Values
  import opened HubState
  import opened Guard

  /** Python's `old == new` between the stored location (`None` when the
      user never had the item) and the raw `to`: a stored (domain, spot)
      tuple never equals a JSON value, so only two cases compare equal. */
  predicate SameAsRequested(prior: Option<Location>, to: Json)
  {
    match prior
    case None => to == Null
    case Some(Carried) => to == Str("inventory")
    case Some(Dropped(_, _)) => false
  }

  /** Python's `old[0] == did`: the first component of the stored
      location. For "inventory" that is the character 'i', never a domain
      id, so a carried item is never parked with any domain. */
  predicate ParkedWith(prior: Location, did: int)
  {
    prior.Dropped? && prior.domain == did
  }

  function Stored(u: User, tid: int): Option<Location>
  {
    if tid in u.inventory then Some(u.inventory[tid]) else None
  }

  /** The checks and commit of `/transfer` on one user's record, for item
      `tid` with template `t`, requested by domain `did`. */
  function Move(u: User, tid: int, t: Template, did: int, to: Json): (r: Result<User>)
    // only the two equal-comparing cases are refused as no-ops
    ensures r == Err(Conflict) <==>
              (tid !in u.inventory && to == Null) || (tid in u.inventory && u.inventory[tid] == Carried && to == Str("inventory"))
    // the whole acceptance condition, in terms of where the item is now
    ensures r.Ok? <==>
              if tid in u.inventory then
                ParkedWith(u.inventory[tid], did) && (to == Str("inventory") || t.home == did)
              else
                to != Null && (t.home == did || did in t.hosts)
    // every other refusal is a 403
    ensures r.Err? ==> r == Err(Conflict) || r == Err(Forbidden)
    // an item the user carries can never be moved by a domain
    ensures tid in u.inventory && u.inventory[tid] == Carried ==> r.Err?
    // nor can an item parked in another domain's space
    ensures tid in u.inventory && u.inventory[tid].Dropped? && u.inventory[tid].domain != did ==> r == Err(Forbidden)
    // a domain that neither owns nor hosts an item cannot conjure it
    ensures tid !in u.inventory && t.home != did && did !in t.hosts ==> r.Err?
    // success changes that one entry, and `hashad` exactly when it becomes carried
    ensures r.Ok? ==>
              && tid in r.value.inventory && r.value.inventory[tid] == Resolve(did, to)
              && r.value.inventory.Keys == u.inventory.Keys + {tid}
              && (forall k | k in u.inventory && k != tid :: r.value.inventory[k] == u.inventory[k])
              && r.value.hashad == (if to == Str("inventory") then u.hashad + {tid} else u.hashad)
              && r.value.secret == u.secret && r.value.at == u.at && r.value.domstate == u.domstate
              && r.value.score == u.score
  {
    var prior := Stored(u, tid);
    var owned := t.home == did || did in t.hosts;
    if SameAsRequested(prior, to) then Err(Conflict)
    else if prior.None? && !owned then Err(Forbidden)
    else if prior.Some? && to != Str("inventory") && t.home != did then Err(Forbidden)
    else if prior.Some? && !ParkedWith(prior.value, did) then Err(Forbidden)
    else
      var loc := Resolve(did, to);
      Ok(u.(inventory := u.inventory[tid := loc],
            hashad := if loc == Carried then u.hashad + {tid} else u.hashad))
  }

  /** The request's item field names a template. */
  predicate KnownItem(h: Hub, item: Option<Json>)
  {
    IntField(item).Some? && IntField(item).value in h.templates
  }

  /** `/transfer`: authenticate the domain, check the user, item and `to`
      fields (400 each), then run `Move`. */
  function TransferItem(h: Hub, domain: Option<Json>, secret: Option<Json>, user: Option<Json>,
                        item: Option<Json>, to: Option<Json>): (r: Step<()>)
    ensures r.out.Err? ==> r.hub == h
    // the refusals, in the order the handler checks them
    ensures CheckDomain(h, domain, secret).Err? ==> r.out == Err(CheckDomain(h, domain, secret).code)
    ensures CheckDomain(h, domain, secret).Ok? && KnownUser(h, user).None? ==> r.out == Err(BadRequest)
    ensures (CheckDomain(h, domain, secret).Ok? && KnownUser(h, user).Some? && !KnownItem(h, item)) ==>
              r.out == Err(BadRequest)
    ensures (CheckDomain(h, domain, secret).Ok? && KnownUser(h, user).Some? && KnownItem(h, item) && to.None?) ==>
              r.out == Err(BadRequest)
    // past those checks the answer is `Move`'s: its refusal code, or success
    ensures (CheckDomain(h, domain, secret).Ok? && KnownUser(h, user).Some? && KnownItem(h, item) && to.Some?) ==>
              var did, uid, tid := CheckDomain(h, domain, secret).value, KnownUser(h, user).value, IntField(item).value;
              var m := Move(h.users[uid], tid, h.templates[tid], did, to.value);
              (m.Ok? <==> r.out.Ok?) && (m.Err? ==> r.out == Err(m.code))
    ensures r.out.Ok? ==>
              && CheckDomain(h, domain, secret).Ok?
              && KnownUser(h, user).Some?
              && KnownItem(h, item)
              && to.Some?
    ensures r.out.Ok? ==>
              var did, uid, tid := CheckDomain(h, domain, secret).value, KnownUser(h, user).value, IntField(item).value;
              && uid in r.hub.users
              && r.hub == h.(users := h.users[uid := r.hub.users[uid]])
              && Move(h.users[uid], tid, h.templates[tid], did, to.value) == Ok(r.hub.users[uid])
    ensures Valid(h) ==> Valid(r.hub)
  {
    match CheckDomain(h, domain, secret)
    case Err(code) => Step(h, Err(code))
    case Ok(did) =>
      match KnownUser(h, user)
      case None => Step(h, Err(BadRequest))
      case Some(uid) =>
        if !KnownItem(h, item) then Step(h, Err(BadRequest))
        else if to.None? then Step(h, Err(BadRequest))
        else
          var tid := IntField(item).value;
          match Move(h.users[uid], tid, h.templates[tid], did, to.value)
          case Err(code) => Step(h, Err(code))
          case Ok(u') =>
            var h' := h.(users := h.users[uid := u']);
            assert Valid(h) ==> Valid(h') by {
              if Valid(h) {
                forall v | v in h'.users ensures UserValid(h', h'.users[v]) {
                  assert UserValid(h, h.users[v]);
                }
              }
            }
            Step(h', Ok(()))
  }
}

=== FILE: protocol.dfy ===
/** The item descriptions the hub sends to a domain in `/arrive` and
    `/dropped`, and that the domain keeps in its rooms. */
module Protocol {
  import opened Values

  /** The public fields of an item template that matter to the domain:
      its id, its name, and its depth when the template has one (the hub
      sends a depth only for prizes). Descriptions and verbs are text. */
  datatype Brief = Brief(id: int, name: string, depth: Option<int>)

  /** A dropped item together with the spot token the domain issued for it. */
  datatype Placed = Placed(item: Brief, location: Json)
}

=== FILE: scenarios.dfy ===
/** Worked runs of the hub and the boutique, and the repeat-request rules
    stated for every state. */
module Scenarios {
  import opened Values
  import opened HubState
  import opened Protocol
  import opened Text
  import Guard
  import Setup
  import HubSystem
  import Arrival
  import Transfer
  import Scores
  import Command
  import Drop
  import Boutique
  import Visit
  import ShopCommand

  /** A domain hands an item to a user; the same request again is a no-op
      move and is refused with 409, leaving the state as it was. */
  lemma TransferTwiceConflicts(h: Hub, domain: Option<Json>, secret: Option<Json>, user: Option<Json>, item: Option<Json>)
    requires Valid(h)
    requires Transfer.TransferItem(h, domain, secret, user, item, Some(Str("inventory"))).out.Ok?
    ensures var h1 := Transfer.TransferItem(h, domain, secret, user, item, Some(Str("inventory"))).hub;
            Transfer.TransferItem(h1, domain, secret, user, item, Some(Str("inventory"))) == Step(h1, Err(Conflict))
  {
  }

  /** After a score of `hi` is stored, a lower score `lo` is refused with
      409 and `hi` stays stored. */
  lemma LowerScoreRefused(h: Hub, domain: Option<Json>, secret: Option<Json>, user: Option<Json>, hi: real, lo: real)
    requires Valid(h) && 0.0 <= lo < hi
    requires Scores.AwardScore(h, domain, secret, user, Some(hi)).out.Ok?
    ensures var h1 := Scores.AwardScore(h, domain, secret, user, Some(hi)).hub;
            var did, uid := Guard.CheckDomain(h, domain, secret).value, Guard.KnownUser(h, user).value;
            && StoredScore(h1, uid, did) == hi
            && Scores.AwardScore(h1, domain, secret, user, Some(lo)) == Step(h1, Err(Conflict))
  {
  }

  /** A user who carries nothing cannot drop anything. */
  lemma EmptyHandedDrop(h: Hub, uid: int, rest: seq<string>, reply: Option<Json>)
    requires Valid(h) && uid in h.users && Drop.Gear(h.users[uid]) == {} && |rest| > 0
    ensures Drop.DropItem(h, uid, rest, reply) == Step(h, Ok(Drop.NotCarried))
  {
  }

  /** A user who has just logged in carries nothing, so whatever they
      name in a `drop`, the hub answers that they do not carry it. */
  lemma NewcomerCannotDrop(h: Hub, secret: string, pick: nat, rest: seq<string>, reply: Option<Json>)
    requires Valid(h) && h.mode == Play && |rest| > 0
    ensures var h1 := Arrival.Login(h, secret, pick).hub;
            Command.HandleCommand(h1, Some(Int(|h.users|)), Some(Str(secret)), Command.Words(["drop"] + rest), reply)
              == Step(h1, Ok(Command.DropReport(Drop.NotCarried)))
  {
    var h1 := Arrival.Login(h, secret, pick).hub;
    var uid := |h.users|;
    assert Valid(h1) && uid in h1.users && h1.mode == Play;
    assert Guard.CheckUser(h1, Some(Int(uid)), Some(Str(secret))) == Ok(uid);
    assert Drop.Gear(h1.users[uid]) == {};
    EmptyHandedDrop(h1, uid, rest, reply);
    var words := ["drop"] + rest;
    assert words[0] == "drop" && words[1..] == rest;
  }

  /** Registering a single domain with one item "key" and asking for play
      puts the hub in play with no users yet, and that domain holds the
      outside loot. */
  lemma RegisterOneDomainThenPlay()
    ensures var spec := Setup.ItemSpec(Some("key"), None);
            var r := Setup.Register(Init(), Some(Str("Shop")), Some(Str("A shop")), Some(Str("http://shop")), Some([spec]), 7, "s3cret", 100);
            && r.out.Ok? && Valid(r.hub)
            && var p := Setup.SetMode(r.hub, "play", ["a", "b", "c", "d"], 1, 500);
               && p.out == Ok(Play) && p.hub.mode == Play && p.hub.users == map[]
               && 7 in p.hub.domains && p.hub.domains[7].loot == Some(p.hub.outside)
  {
    var spec := Setup.ItemSpec(Some("key"), None);
    HubSystem.InitValid();
    var r := Setup.Register(Init(), Some(Str("Shop")), Some(Str("A shop")), Some(Str("http://shop")), Some([spec]), 7, "s3cret", 100);
    assert r.out.Ok?;
    assert |r.hub.domains| == 1;
    var p := Setup.SetMode(r.hub, "play", ["a", "b", "c", "d"], 1, 500);
    assert p.out.Ok?;
  }

  /** The lower-case code, also written with a dotless i, passes the
      keypad's upper-casing comparison. */
  lemma LowerCaseCodeAccepted()
    ensures Upper("vip123") == ShopCommand.Code
    ensures Upper("v\U{0131}p123") == ShopCommand.Code
  {
    ShopCommand.CodeSpellings("vip123");
    ShopCommand.CodeSpellings("v\U{0131}p123");
  }

  /** A visitor standing at the entrance walks north then east into the
      VIP lounge, types the code in lower case, and the keypad opens. */
  lemma WalkToVipAndUnlock(s: Boutique.Shop, user: int)
    requires Boutique.Valid(s) && user in s.users
    requires s.users[user].location == Boutique.Entrance && !s.users[user].departed
    ensures var s1 := ShopCommand.Command(s, user, ["go", "north"], None, false).shop;
            var s2 := ShopCommand.Command(s1, user, ["go", "east"], None, false).shop;
            var r := ShopCommand.Command(s2, user, ["tell", "keypad", "vip123"], None, false);
            && s2.users[user].location == Boutique.Vip
            && r.out == Ok(ShopCommand.Unlocked) && !r.shop.users[user].keypadLocked
  {
    var s1 := ShopCommand.Command(s, user, ["go", "north"], None, false).shop;
    assert s1.users[user].location == Boutique.Shopping;
    var s2 := ShopCommand.Command(s1, user, ["go", "east"], None, false).shop;
    assert s2.users[user].location == Boutique.Vip && !s2.users[user].departed;
    LowerCaseCodeAccepted();
    var words := ["tell", "keypad", "vip123"];
    assert words[0] == "tell" && words[1] == "keypad" && words[2] == "vip123";
    var r := ShopCommand.Command(s2, user, words, None, false);
    assert r == ShopCommand.Tell(s2, user, "vip123");
  }

  /** A newcomer arriving at a fresh boutique starts at the entrance. */
  lemma NewcomerAtEntrance(ids: seq<int>, user: int)
    requires |ids| == 5
    ensures Boutique.Valid(Boutique.Start("k", ids))
    ensures var s1 := Visit.Arrive(Boutique.Start("k", ids), "k", user, [], [], []);
            && s1.out.Ok? && user in s1.shop.users
            && s1.shop.users[user].location == Boutique.Entrance && !s1.shop.users[user].departed
            && s1.shop.users[user].keypadLocked
  {
    Boutique.StartValid("k", ids);
  }
}

=== FILE: text.dfy ===
/** The string operations the handlers rely on: Python's `str` and `int`
    on integers, `str.upper` and the substring test `a in b`. */
module Text {
  import opened Values

  predicate IsDigit(c: char)
  {
    '0' <= c <= '9'
  }

  function DigitChar(d: nat): (c: char)
    requires d < 10
    ensures IsDigit(c)
  {
    ('0' as int + d) as char
  }

  function DigitValue(c: char): (d: nat)
    requires IsDigit(c)
    ensures d < 10 && DigitChar(d) == c
  {
    c as int - '0' as int
  }

  /** The decimal digits of a natural number, without leading zeros. */
  function Digits(n: nat): (s: string)
    ensures |s| > 0 && IsDigit(s[0])
    ensures forall i :: 0 <= i < |s| ==> IsDigit(s[i])
    decreases n
  {
    if n < 10 then [DigitChar(n)] else Digits(n / 10) + [DigitChar(n % 10)]
  }

  /** Python's `str(n)` for an integer. */
  function Show(n: int): string
  {
    if n < 0 then "-" + Digits(-n) else Digits(n)
  }

  /** The value of a non-empty run of decimal digits (leading zeros allowed). */
  function ParseDigits(s: string): Option<nat>
    decreases |s|
  {
    if |s| == 0 || !IsDigit(s[|s| - 1]) then None
    else if |s| == 1 then Some(DigitValue(s[0]))
    else match ParseDigits(s[..|s| - 1])
      case None => None
      case Some(p) => Some(10 * p + DigitValue(s[|s| - 1]))
  }

  /** Python's `int(s)` on an optional sign followed by decimal digits;
      `None` where Python raises `ValueError`. */
  function ParseInt(s: string): Option<int>
  {
    if |s| > 0 && s[0] == '-' then
      match ParseDigits(s[1..])
      case None => None
      case Some(v) => Some(-(v as int))
    else if |s| > 0 && s[0] == '+' then
      match ParseDigits(s[1..])
      case None => None
      case Some(v) => Some(v)
    else
      match ParseDigits(s)
      case None => None
      case Some(v) => Some(v)
  }

  lemma {:induction false} ParseDigitsRoundTrip(n: nat)
    ensures ParseDigits(Digits(n)) == Some(n)
    decreases n
  {
    if n >= 10 {
      ParseDigitsRoundTrip(n / 10);
      var s := Digits(n);
      assert s[..|s| - 1] == Digits(n / 10);
    }
  }

  /** `int(str(n)) == n`: reading back what `str` wrote gives the same integer. */
  lemma ParseShowRoundTrip(n: int)
    ensures ParseInt(Show(n)) == Some(n)
  {
    if n < 0 {
      ParseDigitsRoundTrip(-n);
      assert Show(n)[1..] == Digits(-n);
    } else {
      ParseDigitsRoundTrip(n);
    }
  }

  /** Distinct integers print differently, so comparing `str` forms compares the integers. */
  lemma ShowInjective(a: int, b: int)
    ensures Show(a) == Show(b) <==> a == b
  {
    ParseShowRoundTrip(a);
    ParseShowRoundTrip(b);
  }

  /** The upper case of one character, for the characters whose upper case
      is an ASCII letter: the ASCII lower-case letters, dotless i (U+0131)
      and long s (U+017F). Every other character is kept as it is. */
  function UpperChar(c: char): char
  {
    if 'a' <= c <= 'z' then (c as int - 32) as char
    else if c == '\U{0131}' then 'I'
    else if c == '\U{017F}' then 'S'
    else c
  }

  /** `str.upper()`, character by character as `UpperChar` maps them. */
  function Upper(s: string): (r: string)
    ensures |r| == |s|
    ensures forall i :: 0 <= i < |s| ==> r[i] == UpperChar(s[i])
  {
    if |s| == 0 then [] else [UpperChar(s[0])] + Upper(s[1..])
  }

  predicate StartsWith(s: string, prefix: string)
  {
    |prefix| <= |s| && s[..|prefix|] == prefix
  }

  /** Python's `part in s` on strings. */
  predicate Contains(s: string, part: string)
    decreases |s|
  {
    StartsWith(s, part) || (|s| > 0 && Contains(s[1..], part))
  }

  /** `' '.join(words)`. */
  function Join(words: seq<string>): (s: string)
    ensures |words| == 1 ==> s == words[0]
    ensures |words| == 0 ==> s == ""
  {
    if |words| == 0 then ""
    else if |words| == 1 then words[0]
    else words[0] + " " + Join(words[1..])
  }
}

=== FILE: values.dfy ===
/** Wrappers shared by the hub and the domain model: optional values, HTTP
    outcomes, and the JSON scalars that travel in requests. */
module Values {

  datatype Option<+T> = None | Some(value: T) {

    /** The wrapped value, or `default` when there is none (Python's `dict.get(k, default)`). */
    function GetOr(default: T): T
    {
      match this
      case Some(v) => v
      case None => default
    }
  }

  /** The outcome of a request: a value, or the HTTP status code of a refusal. */
  datatype Result<+T> = Ok(value: T) | Err(code: int)

  const BadRequest: int := 400
  const Forbidden: int := 403
  const Conflict: int := 409
  /** An exception escaped the handler; the web framework answers 500. */
  const Crash: int := 500

  /** A JSON scalar as it arrives in a request field or comes back from a
      domain callback. Every JSON value other than null, a string or an
      integer compares unequal to all of these, which `Str` of a string
      no handler looks for already captures. */
  datatype Json = Null | Str(s: string) | Int(i: int)

  /** `data.get(key)` for a field whose value must be a known integer id:
      the id when the field holds an integer, nothing otherwise. */
  function IntField(field: Option<Json>): Option<int>
  {
    match field
    case Some(Int(i)) => Some(i)
    case _ => None
  }

  /** A set with positive size has an element. */
  lemma Member<T>(s: set<T>) returns (x: T)
    requires |s| > 0
    ensures x in s
  {
    assert s != {};
    x :| x in s;
  }

  /** A map with positive size has a key. */
  lemma SomeKey<K, V>(m: map<K, V>) returns (k: K)
    requires |m| > 0
    ensures k in m
  {
    assert |m.Keys| == |m|;
    var ks := m.Keys;
    assert ks != {};
    k :| k in ks;
  }
}
